=== FILE: README.md ===
# DIABUILD core in Dafny

DIABUILD is a chat-driven database designer. The user describes a system in
the chat. A language model answers with a JSON diagram of tables. The diagram
is drawn, turned into a `CREATE TABLE` script, and can be deployed to a
Supabase backend, one command at a time, behind a four-step progress modal.

This project models the logic of that pipeline as immutable datatypes and pure
functions, with one method for the deployment loop:

- `SqlGenerator`: the SQL emitter (`generateSQL`). It covers the field-type
  lookup, the primary-key suffix, the column join and the block framing.
- `Ollama`: what `generateDiagram` does with the model's answer. It cuts out
  the JSON candidate under JavaScript `substring` rules, runs the structural
  check, and falls back to a fixed one-table diagram. Only non-OK statuses and
  transport errors escape.
- `SupabaseService`: `deployToSupabase`. The script is cut into commands:
  CRLF normalised, split on `;`, trimmed, empty pieces dropped. Then comes the
  execute-until-first-failure loop and the progress sequence 1, 2, 3, 4.
- `LoadingModal`: the step-status mapping and the default steps.
- `Chat`: the transcript transitions of `handleSendMessage` and the
  table-description text builder.
- `ChatInput`: the submit guard and the template buttons.
- `MessageList`: the content classifier. It decides between SQL, a numbered
  list cut at `/[0-9]+\.\s+/`, and plain text.
- `App`: the tab guard, the chat handler, the deployment handler with its
  notifications and modal, and the download guard.
- `GeneratedScript`: a cross-module result. A script the emitter produced
  deploys as exactly one command per table, in table order, provided no name
  contains `;`.
- `JsString`: the JavaScript string primitives the code relies on. These are
  `trim` with JavaScript's whitespace set, `indexOf`/`lastIndexOf`, clamping
  and swapping `substring`, `split` on a character, `join`, CRLF replacement,
  ASCII `toLowerCase`, and `filter(Boolean)`.
- `Schema` and `Wrappers`: the diagram datatypes, `Option` and `Result`.

Several things are parameters of the model rather than parts of it:

- The model server's reply is an `HttpReply`.
- `JSON.parse` is a partial oracle `string -> Option<Diagram>`.
- The session lookup is a `SessionLookup`.
- The `execute_sql` procedure is an oracle on the commands sent so far, so it
  may be stateful.
- Clock readings are natural numbers.

## Model

| member | source | states |
|---|---|---|
| SqlGenerator.SqlTypeMapping | src/utils/sqlGenerator.ts:13-31 | `ints`, `bool`, `date` and `float` map to INTEGER, BOOLEAN, TIMESTAMP and DECIMAL, each in both directions; every other word, `json` included, maps to TEXT; only the five column types occur |
| SqlGenerator.FieldLineIgnoresForeignKey | src/utils/sqlGenerator.ts:11-37 | the column definition is the same whatever the foreign-key flag and the description |
| SqlGenerator.FieldLineShape | src/utils/sqlGenerator.ts:11-35 | a column definition starts with two spaces, the name and a space; it ends in ` PRIMARY KEY` exactly when the field is primary, and in its type otherwise; its length is those parts and nothing more, so nothing sits between the name and the type |
| SqlGenerator.FieldLines | src/utils/sqlGenerator.ts:10-38 | one definition per field, in field order |
| SqlGenerator.GenerateSql | src/utils/sqlGenerator.ts:3-45 | the script is empty exactly when there are no nodes |
| SqlGenerator.BlockShape | src/utils/sqlGenerator.ts:7-41 | each table's block starts with its `-- Create L table` / `CREATE TABLE L (` header and ends with the closing parenthesis, `;` and a blank line |
| SqlGenerator.GenerateSqlShape | src/utils/sqlGenerator.ts:6-44 | a non-empty script starts with the first node's header and ends with a block terminator |
| SqlGenerator.GenerateSqlStarts | src/utils/sqlGenerator.ts:6-8 | a non-empty script starts with the first node's header |
| SqlGenerator.GenerateSqlEnds | src/utils/sqlGenerator.ts:6-42 | a non-empty script ends with the last node's block terminator |
| SqlGenerator.GenerateSqlConcat | src/utils/sqlGenerator.ts:4-44 | the script of `a + b` is the script of `a` followed by the script of `b` |
| SqlGenerator.SplitAroundBlock | src/utils/sqlGenerator.ts:6-42 | the script splits into the blocks before node `i`, node `i`'s block, and the blocks after it |
| SqlGenerator.GenerateSqlSingle | src/utils/sqlGenerator.ts:6-42 | the script of one node is that node's block |
| SqlGenerator.BlocksInOrder | src/utils/sqlGenerator.ts:6-8 | node `i`'s block lies between strictly increasing offsets and starts with node `i`'s header; the blocks tile the whole script in input order |
| SqlGenerator.ColumnsInOrder | src/utils/sqlGenerator.ts:10-41 | the column definitions appear in field order, separated by `,\n`, with no trailing separator; the last one is followed directly by the block end |
| Ollama.ExtractDiagram | src/services/ollama.ts:96-127 | an accepted parse is returned unchanged; a missing text, a failed parse or a value without `nodes` and `edges` yields the fallback; the result always has both |
| Ollama.GenerateDiagram | src/services/ollama.ts:89-131 | it fails exactly on a non-OK status or a transport error, with that message; every answer that arrived becomes a diagram, either the accepted one or the fallback |
| Ollama.CandidateBetweenBraces | src/services/ollama.ts:98-101 | when a `{` comes before the last `}`, the candidate runs from the first `{` to the last `}`, both included |
| Ollama.CandidateWithoutClosingBrace | src/services/ollama.ts:98-101 | with no `}` the end index is 0 and `substring` swaps its arguments, so the candidate is the text before the first `{`, or empty |
| Ollama.CandidateWithoutOpeningBrace | src/services/ollama.ts:98-101 | with no `{` the start index -1 clamps to 0, so the candidate is the text up to the last `}` |
| Ollama.CandidateReversedBraces | src/services/ollama.ts:98-101 | when the last `}` comes before the first `{`, the candidate is the text strictly between them |
| Ollama.FallbackShape | src/services/ollama.ts:113-126 | the fallback has one node, with id `1`, type `dbTable`, the error label, no fields and position (400, 0); it has no edges |
| Ollama.EmptyNodesOnlyFromParsedJson | src/services/ollama.ts:102-126 | a diagram without nodes comes only from an answer that parsed and passed the check with an empty `nodes` array |
| SupabaseService.SplitCommands | src/services/supabaseService.ts:21-25 | every command is non-empty, contains no `;`, and has no whitespace at either end |
| SupabaseService.SplitCommandsOfPiece | src/services/supabaseService.ts:21-25 | a script with no `;` yields no command when its CRLF-normalised text is blank and otherwise exactly one, that text trimmed |
| SupabaseService.SplitCommandsOfPlainPiece | src/services/supabaseService.ts:21-25 | a script with no `;` and no carriage return yields no command when it is blank and otherwise exactly one, the script trimmed |
| SupabaseService.SplitCommandsConcat | src/services/supabaseService.ts:21-25 | the commands of two scripts joined by `;` are the commands of the first followed by those of the second, with their contents |
| SupabaseService.BlankScriptHasNoCommands | src/services/supabaseService.ts:21-25 | a script of only whitespace and `;`, the empty script included, yields no command |
| SupabaseService.FirstFailure | src/services/supabaseService.ts:33-50 | the first command the backend rejects when the commands are sent in order; all commands before it are accepted, and with no failure every command is accepted |
| SupabaseService.SendCommands | src/services/supabaseService.ts:33-50 | empty commands are skipped and the others sent in order; the attempted commands are a prefix of the list ending at the first rejected one; the thrown message is the `Command execution failed: ` prefix plus the error or `Unknown error` |
| SupabaseService.DeployToSupabase | src/services/supabaseService.ts:12-59 | a session error or a missing session fails before any progress or command; otherwise progress is 1, 2, 3; success, with progress 4 and every command sent, comes exactly when no command is rejected; a blank script succeeds with no command |
| LoadingModal.StatusFor | src/components/LoadingModal.tsx:34-36 | completed iff the id is below the current step, current iff equal, waiting iff above, and never error |
| LoadingModal.MapSteps | src/components/LoadingModal.tsx:32-37 | keeps the length, order, ids and labels, and gives each step its status for the current step |
| LoadingModal.Refresh | src/components/LoadingModal.tsx:30-39 | while the modal is open, the shown steps are the given steps in order, with the same ids and names, each marked completed, current or waiting as its id is below, at or above the current step; while it is closed (and renders nothing), the kept steps are unchanged |
| LoadingModal.MapStepsStatuses | src/components/LoadingModal.tsx:34-36 | the status of a mapped step: never error, completed, current or waiting as its id compares with the current step |
| LoadingModal.ExactlyOneCurrent | src/components/LoadingModal.tsx:32-37 | with distinct ids and the current step among them, exactly one step is current |
| LoadingModal.NoCurrentOutsideIds | src/components/LoadingModal.tsx:32-37 | when the current step is no step's id, no step is current |
| LoadingModal.DefaultStepsShape | src/components/LoadingModal.tsx:16-21 | four steps with distinct ids 1 to 4, in order, all waiting |
| LoadingModal.StatusMonotone | src/components/LoadingModal.tsx:34-36 | raising the current step only moves a status forward, from waiting to current to completed |
| LoadingModal.DefaultProgress | src/components/LoadingModal.tsx:16-37 | for step `n` in 1..4 the default steps before `n` are completed, step `n` is the one current, and the rest wait |
| Chat.OrElse | src/hooks/useChat.ts:44-45 | JavaScript `o \|\| fallback` on an optional string: the value when it is present and non-empty, else the fallback |
| Chat.TableDescriptions | src/hooks/useChat.ts:42-50 | one entry per node, in node order, named after the node's label |
| Chat.ColumnSuffixDecodes | src/hooks/useChat.ts:46-48 | a column entry's suffix determines the primary and foreign flags and the description, when there is one |
| Chat.ColumnsListed | src/hooks/useChat.ts:44-49 | the description ends with the column entries joined by `, `, in field order; each entry starts with its field's name |
| Chat.WithoutLoading | src/hooks/useChat.ts:62 | removes every `loading` message and keeps every other one |
| Chat.WithoutLoadingConcat | src/hooks/useChat.ts:62 | the filter distributes over concatenation, keeps a non-placeholder and drops a placeholder |
| Chat.BeginSendTranscript | src/hooks/useChat.ts:12-28 | sending turns loading on and appends the user's message, then the `loading` placeholder, changing nothing else |
| Chat.CompleteTranscript | src/hooks/useChat.ts:61-77 | on every path no placeholder remains, the other earlier messages keep their order, exactly one assistant message is appended, and loading is off |
| Chat.HandleSendTranscript | src/hooks/useChat.ts:11-78 | a whole send leaves the earlier transcript without placeholders, then the user's message, then one assistant message, with loading off |
| Chat.SuccessPath | src/hooks/useChat.ts:37-64 | the script is the SQL of the nodes, the reply carries that same SQL and the node descriptions, the graph is the diagram, and the content is the description or the default sentence |
| Chat.FailurePath | src/hooks/useChat.ts:33-74 | missing or empty nodes keep the graph and the script, and the reply is the fixed French error text without SQL |
| Chat.ReplyHasSqlIffProceeds | src/hooks/useChat.ts:33-59 | the reply carries SQL exactly when there were nodes |
| Chat.RequestFailureIsError | src/hooks/useChat.ts:31-35 | a failed request, or an accepted diagram with an empty `nodes` array, takes the error path |
| Chat.UnusableAnswerShowsErrorTable | src/hooks/useChat.ts:31-40 | an answer that cannot be used draws the fallback's error table and makes its SQL the script, with the default sentence as the reply |
| ChatInput.Submit | src/components/ChatInput.tsx:17-23 | `onSend` is called exactly when the trimmed input is non-empty and nothing is loading; it receives the trimmed text and the box is emptied; otherwise the box is unchanged |
| ChatInput.ChooseTemplate | src/components/ChatInput.tsx:28-33 | an enabled template button sets the box to exactly that template; a disabled one leaves it |
| ChatInput.SentIsTrimmed | src/components/ChatInput.tsx:19-20 | what is sent is non-empty, has no whitespace at either end, and would be sent unchanged again |
| ChatInput.SubmitIgnoresSurroundingSpace | src/components/ChatInput.tsx:19-21 | whitespace around the text does not change what is sent |
| ChatInput.TemplateSentVerbatim | src/components/ChatInput.tsx:8-31 | choosing template `k` and submitting sends exactly that template |
| MessageList.SkipDigits | src/components/MessageList.tsx:49 | the end of the run of digits: all digits before it, a non-digit or the end at it |
| MessageList.MarkerEnd | src/components/MessageList.tsx:49 | a match found at `q` ends at least three characters after `q` and inside the text; what it holds is stated by `MarkerEndMatches` |
| MessageList.MarkerEndMatches | src/components/MessageList.tsx:49 | against an independent definition of `[0-9]+\.\s+` (digits, a dot, whitespace): a match found at a position is a match, is greedy (no longer match starts there, and no whitespace follows it), and when none is found no match starts there |
| MessageList.MatchWithin | src/components/MessageList.tsx:49 | every match starting at a position ends no later than the one found there |
| MessageList.MarkerEndIsPattern | src/components/MessageList.tsx:49 | the text found at a position is digits, a dot and whitespace |
| MessageList.PiecesReassemble | src/components/MessageList.tsx:49 | the split loses nothing: interleaving the pieces with the matched markers gives back the text, and there is one more piece than markers |
| MessageList.MarkersAreMatches | src/components/MessageList.tsx:49 | every marker the split cuts out is one whole match of the pattern |
| MessageList.PiecesHaveNoMarker | src/components/MessageList.tsx:49 | no piece contains a match of the pattern |
| MessageList.SplitAtLeftmostMatches | src/components/MessageList.tsx:49 | the text is cut at its leftmost matches, each taken whole: read at its offset in the text, no match starts anywhere inside a piece, and the match starting where a piece ends is exactly the next marker (the longest there, by `MarkerEndMatches`) |
| MessageList.CutsFrom | src/components/MessageList.tsx:49 | every piece of the scan from a position before which no match starts is such a cut, at its offset in the text |
| MessageList.SplitMarkersSound | src/components/MessageList.tsx:49 | the split of a whole text yields marker-free pieces and whole-match markers that reassemble into the text |
| MessageList.ListTextsHaveNoMarker | src/components/MessageList.tsx:49-63 | the intro is non-empty and contains no match of the pattern, and no item's text contains one |
| MessageList.TablesHaveNoMarker | src/components/MessageList.tsx:49-50 | the non-empty pieces of the split contain no match of the pattern |
| MessageList.TrimHasNoMarker | src/components/MessageList.tsx:62 | trimming a text without a match of the pattern leaves none |
| MessageList.ItemText | src/components/MessageList.tsx:56-63 | item `i` holds the trimmed non-empty piece `i + 1` |
| MessageList.Render | src/components/MessageList.tsx:91-101 | a message renders as the placeholder exactly when it is loading |
| MessageList.ClassifyCases | src/components/MessageList.tsx:34-79 | SQL iff the lower-cased text contains `create table`; otherwise a list iff the text contains the case-sensitive list marker; otherwise plain; SQL and plain text are shown verbatim |
| MessageList.UpperCaseSqlDetected | src/components/MessageList.tsx:35 | `CREATE TABLE` in upper case anywhere makes the content SQL |
| MessageList.ListItemsNumbered | src/components/MessageList.tsx:49-63 | the intro is the first non-empty piece; the items are the other non-empty pieces, numbered 1, 2, … in order, each trimmed |
| App.SelectTab | src/App.tsx:196-212 | the diagram tab always opens; the migrations tab opens only on a non-empty script, and otherwise the click changes nothing |
| App.SendMessage | src/App.tsx:65-132 | the app's own handler makes the same transcript transition as the hook and leaves the tab and notification alone |
| App.DismissNotification | src/App.tsx:263 | closing the notification removes it and changes nothing else |
| App.DeploymentFinished | src/App.tsx:165-170 | the timer closes the modal and resets the step to 1, changing nothing else |
| App.Deploy | src/App.tsx:134-164 | with no client there is only an error notification and no deployment; otherwise the success notification appears exactly when the session is active and no command is rejected; a rejected command leaves step 3 and its error message; a session failure leaves step 1 and the session message or the default |
| App.DownloadSql | src/App.tsx:51-63 | nothing is downloaded exactly when the script is empty; otherwise the file is `database_schema.sql` holding the script |
| App.ValidInitial | src/App.tsx:31-41 | the initial state is on the diagram tab, so the migrations guard holds |
| App.SelectTabKeepsValid | src/App.tsx:204 | tab clicks keep the migrations tab closed while the script is empty |
| App.SendMessageKeepsValid | src/App.tsx:87-94 | a send only replaces the script with the SQL of a non-empty node list, so the guard is kept |
| App.MigrationsTabHasDownload | src/App.tsx:52 | when the migrations tab is open, a download always produces a file |
| App.ModalAfterSuccess | src/App.tsx:266-269 | after a fully accepted deployment the modal shows three steps completed and the last current |
| App.ModalAfterCommandFailure | src/App.tsx:266-269 | after a rejected command the modal shows two steps completed, the execution step current and completion waiting |
| App.ModalClosedAfterTimer | src/App.tsx:166-169 | once the timer has fired the modal is closed and keeps what it last showed |
| GeneratedScript.BlockIsStatement | src/utils/sqlGenerator.ts:7-41 | a block is its statement, which ends in `)`, followed by `;` and a blank line |
| GeneratedScript.StatementAvoids | src/utils/sqlGenerator.ts:7-41 | the emitter itself adds no `;` or carriage return inside a statement |
| GeneratedScript.GeneratedScriptCommands | src/services/supabaseService.ts:21-25 | when no table or column name contains `;`, a generated script deploys as one command per table, in table order, each the table's normalised statement |
| GeneratedScript.GeneratedScriptCommandsVerbatim | src/services/supabaseService.ts:21-25 | when no name contains `;` or a carriage return either, command `i` is exactly table `i`'s statement, beginning with its header |
| JsString.Trim | src/components/ChatInput.tsx:19-20 | `trim` gives a slice of the text with only whitespace cut before and after it, with non-space ends, and is empty exactly when the text is all whitespace |
| JsString.IndexOf | src/services/ollama.ts:99 | `indexOf` gives -1 exactly when the character is absent, and otherwise a position holding it with no earlier occurrence |
| JsString.LastIndexOf | src/services/ollama.ts:100 | `lastIndexOf` gives -1 exactly when the character is absent, and otherwise a position holding it with no later occurrence |
| JsString.TrimSurrounded | src/components/ChatInput.tsx:19-20 | `trim` removes exactly the surrounding JavaScript whitespace from a text with non-space ends |
| JsString.TrimIdempotent | src/components/ChatInput.tsx:19-20 | trimming twice is trimming once |
| JsString.Split | src/services/supabaseService.ts:23 | `split` on a character yields at least one piece, and no piece contains the separator |
| JsString.SplitLength | src/services/supabaseService.ts:23 | `split` yields one more piece than there are separators |
| JsString.SplitJoin | src/services/supabaseService.ts:23 | joining the pieces of `split` with the separator gives back the text |
| JsString.JoinSplit | src/services/supabaseService.ts:23 | splitting a join of separator-free pieces gives back the pieces |
| JsString.SplitConcat | src/services/supabaseService.ts:23 | splitting two texts joined by the separator yields the pieces of the first followed by the pieces of the second |
| JsString.ReplaceCrlfBefore | src/services/supabaseService.ts:22 | the CRLF replacement works on each part separately when the second part does not start with a line feed |
| JsString.LoneCrKept | src/services/supabaseService.ts:22 | a carriage return not followed by a line feed stays where it is |
| JsString.CrlfBecomesLf | src/services/supabaseService.ts:22 | a CR LF pair becomes one line feed, whatever text surrounds it |
| JsString.ReplaceCrlfCount | src/services/supabaseService.ts:22 | the CRLF replacement keeps the number of every character except the carriage return |
| JsString.ReplaceCrlfNoCr | src/services/supabaseService.ts:22 | a text without carriage returns is unchanged by the CRLF replacement |
| JsString.ReplaceCrlfChars | src/services/supabaseService.ts:22 | the CRLF replacement brings in no character that the text lacked |
| JsString.NonEmpty | src/services/supabaseService.ts:25 | the filter keeps exactly the non-empty strings, and no empty one |
| JsString.NonEmptyConcat | src/components/MessageList.tsx:49 | the filter of empty strings works piece by piece and distributes over concatenation |
| JsString.NonEmptyOfFilled | src/services/supabaseService.ts:25 | a list without empty strings passes the filter unchanged |
| JsString.NonEmptyOfBlanks | src/services/supabaseService.ts:25 | the filter drops a list of empty strings entirely |
| JsString.SubstringSymmetric | src/services/ollama.ts:98-101 | `substring` swaps reversed bounds, so the order of the two arguments does not matter |
| JsString.ToLowerIdempotent | src/components/MessageList.tsx:35 | lower-cased text has no upper-case letter, and lower-casing it again changes nothing |

## Left out

- The HTTP request to the model server, `response.json()` and the request
  body are not modelled. The reply is an input (`HttpReply`): a non-OK status, a
  thrown error with its message, or a decoded body whose `response` member is
  a string or not. A body that decodes to `null` makes reading `response`
  throw (src/services/ollama.ts:94), outside the `try` that returns the
  fallback, so the model treats it as a `TransportError`, not a
  `Received(None)`.
- `JSON.parse` is a parameter. It is a partial function from the candidate
  text to a diagram, which also covers reading the parsed value as a diagram.
  A parsed `nodes` or `edges` value that is truthy but not an array has no
  counterpart: the model keeps them as sequences.
- The Supabase client, authentication, `auth.getSession` and the
  `execute_sql` procedure are oracles. A thrown call and an `error` result are
  both `ExecError`. The `execute_sql` procedure's own effects in the database
  are not modelled.
- The `REFERENCES` clauses, `NOT NULL` and foreign-key ordering are not
  modelled: the emitter does none of them. The foreign-key flag and field
  descriptions do not affect the SQL (`FieldLineIgnoresForeignKey`).
- Message ids are not decimal strings. `Date.now()` ids are opaque stamps
  (`Stamp(n)`) distinct from the placeholder's `loading` id; the clock is a
  parameter. Nothing constrains two stamps to differ.
- Strings are sequences of Unicode scalar values, not of the UTF-16 code
  units JavaScript indexes, so a lone surrogate cannot be written. No modelled
  behaviour depends on this: every index comes from `indexOf` or
  `lastIndexOf` on the same string.
- `toLowerCase` is modelled on ASCII letters only. Other characters are
  unchanged, so full Unicode case mapping is not modelled.
- JavaScript numbers are unbounded integers. Truthiness of the boolean flags
  is `bool`, and truthiness of optional strings is `Truthy` (present and
  non-empty).
- The one-second `setTimeout` that closes the modal is a separate transition
  (`App.DeploymentFinished`), not a timer.
- Rendering is not modelled: JSX, Prism highlighting, CSS and the blinking
  dots. `MessageList` produces a datatype of render kinds instead. A message's
  role styling is left out.
- The Blob, anchor and URL handling of the download is left out. `DownloadSql`
  returns the file name and contents.
- Graph layout, the canvas, the reset dialog, logout, the textarea's
  `onChange` and `console` logging are left out.
- Errors thrown part-way through a successful answer are left out. A node
  without `fields` makes `generateSQL` throw at src/utils/sqlGenerator.ts:10.
  That happens after `updateGraph` (src/hooks/useChat.ts:37), so the error
  reply appears with the new graph already drawn. A label that is not a
  string throws at src/hooks/useChat.ts:44, after `setSqlScript`
  (src/hooks/useChat.ts:40), so both the graph and the script have already
  been replaced. `App.tsx` repeats this order at lines 91-98. Neither node can
  be expressed in the `Schema` datatypes, so `Chat.FailurePath` does not
  cover these partial updates.
- App.Deploy: an empty script deploys no command and reports success. In the
  program the toolbar disables the deploy button when the script is empty
  (src/components/ToolbarButtons.tsx:24), so this call does not happen there.
  The toolbar is not modelled.
- GeneratedScript.GeneratedScriptCommands: holds only when no table or column
  name contains `;`. The deployment splits on every `;`, so such a name cuts
  its statement into several commands, and the model does not describe those
  commands.

=== FILE: App.dfy ===
/** The application shell: the chat handler (the same transitions as
    `useChat`), the tab guard that keeps the migrations tab closed until there
    is a script, the deployment handler with its notifications and progress
    modal, and the script download. The backend client, session and
    procedure call are inputs; the one-second timer that closes the modal is
    a separate transition. */
module App {
  import opened Wrappers
  import opened Schema
  import opened SqlGenerator
  import opened Ollama
  import opened Chat
  import opened SupabaseService
  import LoadingModal

  datatype Tab = DiagramTab | MigrationsTab

  datatype NoticeKind = SuccessNotice | ErrorNotice

  datatype Notification = Notification(message: string, kind: NoticeKind)

  datatype AppState = AppState(
    chat: ChatState,
    activeTab: Tab,
    notification: Option<Notification>,
    isDeploying: bool,
    deploymentStep: nat)

  const NoClientMessage: string := "Error: Supabase client not initialized"
  const DeployedMessage: string := "Schema deployed successfully!"
  const DeployErrorDefault: string := "Error during deployment"
  const DownloadName: string := "database_schema.sql"

  /** The state on first render: empty transcript and script, diagram tab,
      no notification, modal closed at step 1. */
  const Initial: AppState :=
    AppState(ChatState([], false, "", Graph([], Some([]))), DiagramTab, None, false, 1)

  /** The migrations tab is only ever open on a non-empty script. */
  predicate Valid(a: AppState) {
    a.activeTab == MigrationsTab ==> a.chat.sqlScript != ""
  }

  /** A tab button: the diagram tab always opens; the migrations tab opens
      only when there is a script, and otherwise the click does nothing. */
  function SelectTab(a: AppState, tab: Tab): (b: AppState)
    ensures b.chat == a.chat && b.notification == a.notification
    ensures tab == MigrationsTab && a.chat.sqlScript == "" ==> b == a
    ensures tab == MigrationsTab && a.chat.sqlScript != "" ==> b.activeTab == MigrationsTab
    ensures tab == DiagramTab ==> b.activeTab == DiagramTab
  {
    if tab == MigrationsTab && a.chat.sqlScript == "" then a else a.(activeTab := tab)
  }

  /** `handleSendMessage`, on the chat part of the state. */
  function SendMessage(a: AppState, content: string, reply: HttpReply, parse: JsonParser, sentAt: nat, answeredAt: nat): (b: AppState)
    ensures b.chat == HandleSend(a.chat, content, reply, parse, sentAt, answeredAt)
    ensures b.activeTab == a.activeTab && b.notification == a.notification
  {
    a.(chat := HandleSend(a.chat, content, reply, parse, sentAt, answeredAt))
  }

  /** The notification close button. */
  function DismissNotification(a: AppState): (b: AppState)
    ensures b.notification.None?
    ensures b.chat == a.chat && b.activeTab == a.activeTab
    ensures b.isDeploying == a.isDeploying && b.deploymentStep == a.deploymentStep
  {
    a.(notification := None)
  }

  /** The timer that closes the modal one second after a deployment. */
  function DeploymentFinished(a: AppState): (b: AppState)
    ensures !b.isDeploying && b.deploymentStep == 1
    ensures b.chat == a.chat && b.activeTab == a.activeTab && b.notification == a.notification
  {
    a.(isDeploying := false, deploymentStep := 1)
  }

  /** The error notification for a thrown message. */
  function ErrorNotification(message: string): Notification {
    Notification(if message == "" then DeployErrorDefault else message, ErrorNotice)
  }

  /** `handleSupabaseDeployment` up to its timer. `hasClient` says whether
      the backend client exists; `attempted` lists the commands sent. */
  method Deploy(a: AppState, hasClient: bool, session: SessionLookup, exec: Executor)
    returns (b: AppState, attempted: seq<string>)
    ensures b.chat == a.chat && b.activeTab == a.activeTab
    ensures !hasClient ==> b == a.(notification := Some(Notification(NoClientMessage, ErrorNotice))) && attempted == []
    ensures hasClient ==> b.isDeploying && 1 <= b.deploymentStep <= 4
    ensures hasClient ==>
      (b.notification == Some(Notification(DeployedMessage, SuccessNotice)) <==>
       session.Active? && FirstFailure(exec, SplitCommands(a.chat.sqlScript), 0).None?)
    ensures hasClient && session.Active? && FirstFailure(exec, SplitCommands(a.chat.sqlScript), 0).None? ==>
      && b.deploymentStep == Completed
      && attempted == SplitCommands(a.chat.sqlScript)
    ensures hasClient && session.Active? && FirstFailure(exec, SplitCommands(a.chat.sqlScript), 0).Some? ==>
      && b.deploymentStep == ExecutingCommands
      && |attempted| == FirstFailure(exec, SplitCommands(a.chat.sqlScript), 0).value + 1
      && exec(attempted).ExecError?
      && b.notification == Some(Notification(CommandFailure(exec(attempted)), ErrorNotice))
    ensures hasClient && !session.Active? ==>
      && b.deploymentStep == 1
      && attempted == []
      && b.notification == Some(ErrorNotification(if session.SessionError? then session.message else NoSessionMessage))
  {
    if !hasClient {
      return a.(notification := Some(Notification(NoClientMessage, ErrorNotice))), [];
    }
    var outcome, progress;
    outcome, attempted, progress := DeployToSupabase(a.chat.sqlScript, session, exec);
    var step: nat := if |progress| > 0 then progress[|progress| - 1] else 1;
    var notification := a.notification;
    match outcome {
      case Success(ok) =>
        if ok {
          notification := Some(Notification(DeployedMessage, SuccessNotice));
        }
      case Failure(m) =>
        notification := Some(ErrorNotification(m));
    }
    b := a.(isDeploying := true, deploymentStep := step, notification := notification);
  }

  /** What a download produces: a file name and the file's text. */
  datatype Download = Download(fileName: string, content: string)

  /** `handleDownloadSQL`: nothing on an empty script, otherwise the script
      itself under a fixed file name. */
  function DownloadSql(a: AppState): (d: Option<Download>)
    ensures d.None? <==> a.chat.sqlScript == ""
    ensures d.Some? ==> d.value.content == a.chat.sqlScript && d.value.fileName == DownloadName
  {
    if a.chat.sqlScript == "" then None else Some(Download(DownloadName, a.chat.sqlScript))
  }

  /** The steps the progress modal shows, given what it showed before. */
  function ModalSteps(a: AppState, shown: seq<LoadingModal.Step>): seq<LoadingModal.Step> {
    LoadingModal.Refresh(shown, a.isDeploying, LoadingModal.DefaultSteps, a.deploymentStep)
  }

  /** The migrations-tab guard holds initially and is kept by every
      transition: the script only ever changes to the SQL of a non-empty
      node list. */
  lemma ValidInitial()
    ensures Valid(Initial)
  {
  }

  lemma SelectTabKeepsValid(a: AppState, tab: Tab)
    requires Valid(a)
    ensures Valid(SelectTab(a, tab))
  {
  }

  lemma SendMessageKeepsValid(a: AppState, content: string, reply: HttpReply, parse: JsonParser, sentAt: nat, answeredAt: nat)
    requires Valid(a)
    ensures Valid(SendMessage(a, content, reply, parse, sentAt, answeredAt))
  {
    var b := BeginSend(a.chat, content, sentAt);
    var o := GenerateDiagram(reply, parse);
    if Proceeds(o) {
      SuccessPath(b, content, o, answeredAt);
    } else {
      FailurePath(b, content, o, answeredAt);
    }
  }

  /** Deployments, their timers and notification dismissals leave the chat
      and the tab alone, so they keep the guard too; with the guard, the
      migrations tab always has something to download. */
  lemma MigrationsTabHasDownload(a: AppState)
    requires Valid(a) && a.activeTab == MigrationsTab
    ensures DownloadSql(a).Some?
  {
  }

  /** After a deployment whose commands were all accepted, the modal shows
      the first three steps completed and the last one current. */
  lemma ModalAfterSuccess(a: AppState, shown: seq<LoadingModal.Step>, k: nat)
    requires a.isDeploying && a.deploymentStep == Completed
    requires k < 4
    ensures ModalSteps(a, shown)[k].status == (if k < 3 then LoadingModal.Completed else LoadingModal.Current)
  {
    LoadingModal.DefaultProgress(4, k);
  }

  /** After a rejected command, the modal stays on the execution step. */
  lemma ModalAfterCommandFailure(a: AppState, shown: seq<LoadingModal.Step>, k: nat)
    requires a.isDeploying && a.deploymentStep == ExecutingCommands
    requires k < 4
    ensures ModalSteps(a, shown)[k].status ==
      (if k < 2 then LoadingModal.Completed else if k == 2 then LoadingModal.Current else LoadingModal.Waiting)
  {
    LoadingModal.DefaultProgress(3, k);
  }

  /** Once the timer fires the modal is closed and keeps what it showed. */
  lemma ModalClosedAfterTimer(a: AppState, shown: seq<LoadingModal.Step>)
    ensures ModalSteps(DeploymentFinished(a), shown) == shown
  {
  }
}

=== FILE: Chat.dfy ===
/** The chat transcript of `useChat` (and the identical handler in `App`):
    sending appends the user's message and a `'loading'` placeholder; when the
    diagram request settles every placeholder is removed and exactly one
    assistant message is appended, carrying either the schema (with its SQL
    and table descriptions) or a fixed error text. The clock and the model
    server are inputs. */
module Chat {
  import opened Wrappers
  import opened JsString
  import opened Schema
  import opened SqlGenerator
  import opened Ollama

  datatype Role = User | Assistant

  /** Message ids: the placeholder's fixed id `'loading'`, or the decimal
      string of a clock reading in milliseconds, which never spells `loading`. */
  datatype MsgId = LoadingId | Stamp(millis: nat)

  /** An entry of a message's `tables` list. */
  datatype TableInfo = TableInfo(name: string, description: string)

  datatype Message = Message(
    id: MsgId,
    content: string,
    role: Role,
    sql: Option<string>,
    tables: Option<seq<TableInfo>>,
    isLoading: bool)

  /** What was last handed to `updateGraph`. */
  datatype Graph = Graph(nodes: seq<Table>, edges: Option<seq<Edge>>)

  datatype ChatState = ChatState(messages: seq<Message>, isLoading: bool, sqlScript: string, graph: Graph)

  const LoadingText: string := "Working on it"
  const ErrorText: string := "Erreur lors de la génération du diagramme. Veuillez réessayer."

  /** The placeholder shown while the request is pending. */
  const Placeholder: Message := Message(LoadingId, LoadingText, Assistant, None, None, true)

  function UserMessage(content: string, now: nat): Message {
    Message(Stamp(now), content, User, None, None, false)
  }

  /** An optional string is truthy when present and not empty. */
  predicate Truthy(o: Option<string>) {
    o.Some? && o.value != ""
  }

  /** JavaScript's `o || fallback` on an optional string. */
  function OrElse(o: Option<string>, fallback: string): (r: string)
    ensures Truthy(o) ==> r == o.value
    ensures !Truthy(o) ==> r == fallback
  {
    if Truthy(o) then o.value else fallback
  }

  // Table descriptions

  const PrimaryMark: string := " (Primary Key)"
  const ForeignMark: string := " (Foreign Key)"
  const DescriptionMark: string := " - "

  /** What follows a column's name in its entry. */
  function ColumnSuffix(isPrimary: bool, isForeign: bool, description: Option<string>): string {
    (if isPrimary then PrimaryMark else "")
    + (if isForeign then ForeignMark else "")
    + (if Truthy(description) then DescriptionMark + description.value else "")
  }

  /** One entry of the `Columns:` list. */
  function ColumnEntry(f: Field): string {
    f.name + ColumnSuffix(f.isPrimary, f.isForeign, f.description)
  }

  /** The `description` of a node's entry. */
  function TableText(t: Table): string {
    OrElse(t.purpose, "Stores and manages") + " " + ToLower(t.name) + " data.\n\n"
    + "Purpose: " + OrElse(t.purpose, "Manages core data for " + t.name) + "\n"
    + "Columns: " + Join(seq(|t.fields|, k requires 0 <= k < |t.fields| => ColumnEntry(t.fields[k])), ", ")
  }

  /** `tableDescriptions`: one entry per node, in node order, named after it. */
  function TableDescriptions(nodes: seq<Table>): (r: seq<TableInfo>)
    ensures |r| == |nodes|
    ensures forall k :: 0 <= k < |r| ==> r[k].name == nodes[k].name && r[k].description == TableText(nodes[k])
  {
    seq(|nodes|, k requires 0 <= k < |nodes| => TableInfo(nodes[k].name, TableText(nodes[k])))
  }

  /** The suffix of a column entry can be read back: it determines both flags
      and the description, when there is one. */
  lemma ColumnSuffixDecodes(p1: bool, f1: bool, d1: Option<string>, p2: bool, f2: bool, d2: Option<string>)
    requires ColumnSuffix(p1, f1, d1) == ColumnSuffix(p2, f2, d2)
    ensures p1 == p2 && f1 == f2
    ensures Truthy(d1) <==> Truthy(d2)
    ensures Truthy(d1) ==> d1.value == d2.value
  {
    var u1 := if Truthy(d1) then DescriptionMark + d1.value else "";
    var u2 := if Truthy(d2) then DescriptionMark + d2.value else "";
    var t1 := (if f1 then ForeignMark else "") + u1;
    var t2 := (if f2 then ForeignMark else "") + u2;
    ConcatAssoc(if p1 then PrimaryMark else "", if f1 then ForeignMark else "", u1);
    ConcatAssoc(if p2 then PrimaryMark else "", if f2 then ForeignMark else "", u2);
    MarkDecides(PrimaryMark, p1, t1);
    MarkDecides(PrimaryMark, p2, t2);
    assert t1 == t2;
    MarkDecides(ForeignMark, f1, u1);
    MarkDecides(ForeignMark, f2, u2);
    assert u1 == u2;
    if Truthy(d1) {
      assert d1.value == u1[3..];
    }
    if Truthy(d2) {
      assert d2.value == u2[3..];
    }
  }

  /** An optional mark in front of text that does not share the mark's third
      character is recognised by that character, and strips off. */
  lemma MarkDecides(mark: string, present: bool, rest: string)
    requires |mark| >= 3
    requires rest == "" || (|rest| >= 3 && rest[2] != mark[2])
    ensures var s := (if present then mark else "") + rest;
      && (present <==> |s| >= 3 && s[2] == mark[2])
      && s[(if present then |mark| else 0)..] == rest
  {
  }

  // The transcript

  /** Every `'loading'` message removed, the others kept in order. */
  function WithoutLoading(msgs: seq<Message>): (r: seq<Message>)
    ensures |r| <= |msgs|
    ensures forall k :: 0 <= k < |r| ==> r[k].id != LoadingId && r[k] in msgs
    ensures forall m :: m in msgs && m.id != LoadingId ==> m in r
  {
    if |msgs| == 0 then []
    else if msgs[0].id == LoadingId then WithoutLoading(msgs[1..])
    else [msgs[0]] + WithoutLoading(msgs[1..])
  }

  /** The filter goes message by message: it distributes over concatenation,
      keeps a single non-placeholder and drops a single placeholder. */
  lemma {:induction false} WithoutLoadingConcat(a: seq<Message>, b: seq<Message>)
    ensures WithoutLoading(a + b) == WithoutLoading(a) + WithoutLoading(b)
    ensures forall m :: WithoutLoading([m]) == if m.id == LoadingId then [] else [m]
    decreases |a|
  {
    if |a| > 0 {
      assert (a + b)[0] == a[0];
      assert (a + b)[1..] == a[1..] + b;
      WithoutLoadingConcat(a[1..], b);
    } else {
      assert a + b == b;
    }
    forall m ensures WithoutLoading([m]) == if m.id == LoadingId then [] else [m] {
      assert [m][1..] == [];
    }
  }

  /** Sending: loading on, the user's message and the placeholder appended. */
  function BeginSend(s: ChatState, content: string, now: nat): ChatState {
    s.(isLoading := true, messages := s.messages + [UserMessage(content, now), Placeholder])
  }

  /** The diagram the handler goes on with: one that arrived and has at least
      one node. Anything else takes the error path. */
  predicate Proceeds(o: Result<Diagram>) {
    o.Success? && o.value.nodes.Some? && |o.value.nodes.value| > 0
  }

  /** The assistant text when the diagram has no description. */
  function DefaultContent(content: string): string {
    "The " + ToLower(content) + " schema has been created with the following structure:"
  }

  /** The request settled with `outcome`: placeholders removed, one assistant
      message appended, loading off; on the success path the graph and the
      script are replaced. */
  function Complete(s: ChatState, content: string, outcome: Result<Diagram>, now: nat): ChatState {
    var rest := WithoutLoading(s.messages);
    if Proceeds(outcome) then
      var d := outcome.value;
      var nodes := d.nodes.value;
      var sql := GenerateSql(nodes);
      var reply := Message(Stamp(now + 1), OrElse(d.description, DefaultContent(content)), Assistant,
                           Some(sql), Some(TableDescriptions(nodes)), false);
      ChatState(rest + [reply], false, sql, Graph(nodes, d.edges))
    else
      var reply := Message(Stamp(now + 1), ErrorText, Assistant, None, None, false);
      ChatState(rest + [reply], false, s.sqlScript, s.graph)
  }

  /** `handleSendMessage`: the model server's reply and the parser are
      inputs, and so are the two clock readings. */
  function HandleSend(s: ChatState, content: string, reply: HttpReply, parse: JsonParser, sentAt: nat, answeredAt: nat): ChatState {
    Complete(BeginSend(s, content, sentAt), content, GenerateDiagram(reply, parse), answeredAt)
  }

  /** The last message of a transcript. */
  function LastMessage(msgs: seq<Message>): Message
    requires |msgs| > 0
  {
    msgs[|msgs| - 1]
  }

  /** Sending shows the user's message followed by the placeholder, and turns
      loading on; nothing else changes. */
  lemma BeginSendTranscript(s: ChatState, content: string, now: nat)
    ensures BeginSend(s, content, now).isLoading
    ensures BeginSend(s, content, now).messages[..|s.messages|] == s.messages
    ensures |BeginSend(s, content, now).messages| == |s.messages| + 2
    ensures BeginSend(s, content, now).messages[|s.messages|] == UserMessage(content, now)
    ensures BeginSend(s, content, now).messages[|s.messages| + 1].id == LoadingId
    ensures BeginSend(s, content, now).messages[|s.messages| + 1].isLoading
    ensures BeginSend(s, content, now).sqlScript == s.sqlScript && BeginSend(s, content, now).graph == s.graph
  {
  }

  /** On every path no placeholder is left, the earlier non-placeholder
      messages keep their order, exactly one assistant message is appended,
      and loading is off. */
  lemma CompleteTranscript(s: ChatState, content: string, outcome: Result<Diagram>, now: nat)
    ensures var t := Complete(s, content, outcome, now);
      && !t.isLoading
      && |t.messages| > 0
      && t.messages == WithoutLoading(s.messages) + [LastMessage(t.messages)]
      && LastMessage(t.messages).role == Assistant
      && !LastMessage(t.messages).isLoading
      && forall k :: 0 <= k < |t.messages| ==> t.messages[k].id != LoadingId
  {
  }

  /** A whole send: the transcript afterwards is the earlier one without
      placeholders, then the user's message, then one assistant message. */
  lemma HandleSendTranscript(s: ChatState, content: string, reply: HttpReply, parse: JsonParser, sentAt: nat, answeredAt: nat)
    ensures var t := HandleSend(s, content, reply, parse, sentAt, answeredAt);
      && !t.isLoading
      && |t.messages| == |WithoutLoading(s.messages)| + 2
      && t.messages[..|t.messages| - 1] == WithoutLoading(s.messages) + [UserMessage(content, sentAt)]
      && LastMessage(t.messages).role == Assistant
      && forall k :: 0 <= k < |t.messages| ==> t.messages[k].id != LoadingId
  {
    var b := BeginSend(s, content, sentAt);
    var t := HandleSend(s, content, reply, parse, sentAt, answeredAt);
    WithoutLoadingConcat(s.messages, [UserMessage(content, sentAt), Placeholder]);
    WithoutLoadingConcat([UserMessage(content, sentAt)], [Placeholder]);
    CompleteTranscript(b, content, GenerateDiagram(reply, parse), answeredAt);
    assert t.messages == WithoutLoading(s.messages) + [UserMessage(content, sentAt)] + [LastMessage(t.messages)];
  }

  /** The success path: the script is the SQL of the nodes, the reply
      carries that same script and one description per node, and the graph
      is replaced by the diagram. */
  lemma SuccessPath(s: ChatState, content: string, outcome: Result<Diagram>, now: nat)
    requires Proceeds(outcome)
    ensures var t := Complete(s, content, outcome, now);
      && t.sqlScript == GenerateSql(outcome.value.nodes.value)
      && t.sqlScript != ""
      && t.graph == Graph(outcome.value.nodes.value, outcome.value.edges)
      && LastMessage(t.messages).sql == Some(t.sqlScript)
      && LastMessage(t.messages).tables == Some(TableDescriptions(outcome.value.nodes.value))
      && LastMessage(t.messages).content
         == if Truthy(outcome.value.description) then outcome.value.description.value else DefaultContent(content)
  {
  }

  /** The error path: the graph and the script are untouched and the reply is
      the fixed error text, without SQL. */
  lemma FailurePath(s: ChatState, content: string, outcome: Result<Diagram>, now: nat)
    requires !Proceeds(outcome)
    ensures var t := Complete(s, content, outcome, now);
      && t.sqlScript == s.sqlScript
      && t.graph == s.graph
      && LastMessage(t.messages).content == ErrorText
      && LastMessage(t.messages).sql.None?
  {
  }

  /** The reply carries SQL exactly when the handler took the success path. */
  lemma ReplyHasSqlIffProceeds(s: ChatState, content: string, outcome: Result<Diagram>, now: nat)
    ensures LastMessage(Complete(s, content, outcome, now).messages).sql.Some? <==> Proceeds(outcome)
  {
  }

  /** A failed request (non-OK status or transport error) takes the error
      path; so does a parsed answer without nodes. */
  lemma RequestFailureIsError(reply: HttpReply, parse: JsonParser)
    ensures !reply.Received? ==> !Proceeds(GenerateDiagram(reply, parse))
    ensures reply.Received? && Accepted(reply.response, parse).Some?
            && Accepted(reply.response, parse).value.nodes.value == []
            ==> !Proceeds(GenerateDiagram(reply, parse))
  {
  }

  /** An answer the client cannot use does not take the error path: the
      fallback's single error table is drawn and its SQL becomes the script. */
  lemma UnusableAnswerShowsErrorTable(s: ChatState, content: string, reply: HttpReply, parse: JsonParser, sentAt: nat, answeredAt: nat)
    requires reply.Received? && Accepted(reply.response, parse).None?
    ensures var t := HandleSend(s, content, reply, parse, sentAt, answeredAt);
      && t.graph.nodes == Fallback.nodes.value
      && t.sqlScript == TableBlock(Fallback.nodes.value[0])
      && LastMessage(t.messages).content == DefaultContent(content)
  {
    var o := GenerateDiagram(reply, parse);
    assert o == Success(Fallback);
    GenerateSqlSingle(Fallback.nodes.value[0]);
  }

  /** In a node's description the column entries appear in field order,
      separated by `, `. */
  lemma ColumnsListed(t: Table, k: nat)
    requires k < |t.fields|
    ensures var entries := seq(|t.fields|, j requires 0 <= j < |t.fields| => ColumnEntry(t.fields[j]));
      && OccursAt(Join(entries, ", "), ColumnEntry(t.fields[k]), JoinOffset(entries, ", ", k))
      && StartsWith(ColumnEntry(t.fields[k]), t.fields[k].name)
      && EndsWith(TableText(t), Join(entries, ", "))
  {
    var entries := seq(|t.fields|, j requires 0 <= j < |t.fields| => ColumnEntry(t.fields[j]));
    JoinPieces(entries, ", ", k);
    var head := OrElse(t.purpose, "Stores and manages") + " " + ToLower(t.name) + " data.\n\n"
      + "Purpose: " + OrElse(t.purpose, "Manages core data for " + t.name) + "\n" + "Columns: ";
    assert TableText(t) == head + Join(entries, ", ");
  }
}

=== FILE: ChatInput.dfy ===
/** The chat input box: a submit guard that sends the trimmed text, and
    template buttons that fill the box. Both are disabled while a request is
    pending. */
module ChatInput {
  import opened Wrappers
  import opened JsString

  /** The prompt templates offered as buttons, in display order. */
  const PromptTemplates: seq<string> := [
    "Créer un diagramme" + " de séquence pour un processus " + "d'authentification",
    "Générer un diagramme" + " de flux pour un processus " + "de paiement",
    "Créer un diagramme" + " de classe pour une " + "bibliothèque"
  ]

  /** The box's text after a submit, and what was handed to `onSend`. */
  datatype SubmitOutcome = SubmitOutcome(input: string, sent: Option<string>)

  /** `handleSubmit`. */
  function Submit(input: string, isLoading: bool): (r: SubmitOutcome)
    ensures r.sent.Some? <==> !AllSpace(input) && !isLoading
    ensures r.sent.Some? ==> r.input == "" && r.sent.value == Trim(input)
    ensures r.sent.None? ==> r.input == input
  {
    if Trim(input) != "" && !isLoading then SubmitOutcome("", Some(Trim(input)))
    else SubmitOutcome(input, None)
  }

  /** A template button: it fills the box with the template, unless it is
      disabled because a request is pending. */
  function ChooseTemplate(input: string, k: nat, isLoading: bool): (r: string)
    requires k < |PromptTemplates|
    ensures isLoading ==> r == input
    ensures !isLoading ==> r == PromptTemplates[k]
  {
    if isLoading then input else PromptTemplates[k]
  }

  /** What is sent is never empty and has no surrounding whitespace; sending
      it again unchanged would send the same text. */
  lemma SentIsTrimmed(input: string, isLoading: bool)
    requires Submit(input, isLoading).sent.Some?
    ensures var m := Submit(input, isLoading).sent.value;
      && m != ""
      && !IsSpace(m[0]) && !IsSpace(m[|m| - 1])
      && Trim(m) == m
      && Submit(m, isLoading).sent == Some(m)
  {
    var m := Trim(input);
    TrimIdempotent(input);
  }

  /** Whitespace around the text does not change what is sent. */
  lemma SubmitIgnoresSurroundingSpace(pre: string, x: string, post: string, isLoading: bool)
    requires AllSpace(pre) && AllSpace(post)
    requires x != [] && !IsSpace(x[0]) && !IsSpace(x[|x| - 1])
    requires !isLoading
    ensures Submit(pre + x + post, isLoading).sent == Some(x)
    ensures Submit(pre + x + post, isLoading).input == ""
  {
    TrimSurrounded(pre, x, post);
  }

  /** Each template is sent verbatim: choosing template `k` and submitting
      hands exactly that template to `onSend` and empties the box. */
  lemma TemplateSentVerbatim(input: string, k: nat)
    requires k < |PromptTemplates|
    ensures Submit(ChooseTemplate(input, k, false), false) == SubmitOutcome("", Some(PromptTemplates[k]))
  {
    var t := PromptTemplates[k];
    if k == 0 {
      assert t[0] == 'C' && t[|t| - 1] == 'n';
    } else if k == 1 {
      assert t[0] == 'G' && t[|t| - 1] == 't';
    } else {
      assert t[0] == 'C' && t[|t| - 1] == 'e';
    }
    TrimIdentity(t);
  }
}

=== FILE: GeneratedScript.dfy ===
/** What the deployment does with a script the emitter produced: when no
    table or column name contains `;`, the script splits into exactly one
    command per table, in table order, each the table's block without its
    closing `;` and blank line. */
module GeneratedScript {
  import opened JsString
  import opened Schema
  import opened SqlGenerator
  import opened SupabaseService

  /** A table's block up to the closing parenthesis, without `;\n\n`. */
  function Statement(t: Table): string {
    Header(t) + Columns(t) + "\n)"
  }

  /** The character `c` occurs in no name the table's block is built from. */
  predicate NamesAvoid(t: Table, c: char) {
    c !in t.name && forall k :: 0 <= k < |t.fields| ==> c !in t.fields[k].name
  }

  /** The block is the statement, a `;`, and a blank line. */
  lemma BlockIsStatement(t: Table)
    ensures TableBlock(t) == Statement(t) + ";\n\n"
    ensures Statement(t)[|Statement(t)| - 1] == ')'
  {
    var h, c := Header(t), Columns(t);
    assert TableBlock(t) == (h + c) + BlockEnd;
    assert Statement(t) + ";\n\n" == (h + c) + ("\n)" + ";\n\n");
  }

  /** Neither `;` nor a carriage return appears in a statement unless a name
      brings it in. */
  lemma StatementAvoids(t: Table, c: char)
    requires c == ';' || c == '\r'
    requires NamesAvoid(t, c)
    ensures c !in Statement(t)
  {
    var lines := FieldLines(t.fields);
    forall k | 0 <= k < |lines| ensures c !in lines[k] {
      FieldLineAvoids(t.fields[k], c);
    }
    JoinAvoids(lines, ColumnSeparator, c);
    HeaderAvoids(t, c);
  }

  lemma HeaderAvoids(t: Table, c: char)
    requires c == ';' || c == '\r'
    requires c !in t.name
    ensures c !in Header(t)
  {
  }

  lemma FieldLineAvoids(f: Field, c: char)
    requires c == ';' || c == '\r'
    requires c !in f.name
    ensures c !in FieldLine(f)
  {
    SqlTypeMapping(f.fieldType);
  }

  /** After line-ending normalisation a statement still starts with `-` and
      ends with `)`, so trimming leaves it alone. */
  lemma NormalisedStatementEnds(t: Table)
    ensures var r := ReplaceCrlf(Statement(t));
      r != [] && r[0] == '-' && r[|r| - 1] == ')'
  {
    var body := Header(t) + Columns(t) + "\n";
    assert Statement(t) == body + ")";
    ReplaceCrlfConcat(body, ")");
    assert ReplaceCrlf(")") == ")";
    assert body[0] == '-';
    assert ReplaceCrlf(body) == [body[0]] + ReplaceCrlf(body[1..]);
  }

  /** The `;` and the blank line closing a block are left as they are. */
  lemma NormaliseGap(rest: string)
    ensures ReplaceCrlf(";\n\n" + rest) == [';'] + ("\n\n" + ReplaceCrlf(rest))
  {
    var x := ";\n\n" + rest;
    assert x[1..] == "\n\n" + rest;
    assert x[2..] == "\n" + rest;
    assert x[3..] == rest;
    assert ReplaceCrlf(x[2..]) == ['\n'] + ReplaceCrlf(rest);
    assert ReplaceCrlf(x[1..]) == ['\n'] + ReplaceCrlf(x[2..]);
  }

  /** Normalising a block followed by more text: the normalised statement, the
      `;`, the blank line, then the normalised rest. */
  lemma NormaliseBlock(t: Table, rest: string)
    ensures ReplaceCrlf(TableBlock(t) + rest) == ReplaceCrlf(Statement(t)) + [';'] + ("\n\n" + ReplaceCrlf(rest))
  {
    var s := Statement(t);
    BlockIsStatement(t);
    ConcatAssoc(s, ";\n\n", rest);
    ReplaceCrlfConcat(s, ";\n\n" + rest);
    NormaliseGap(rest);
  }

  /** Trimming distributes over a piece put in front. */
  lemma TrimAllCons(a: string, b: seq<string>)
    ensures TrimAll([a] + b) == [Trim(a)] + TrimAll(b)
  {
  }

  /** Normalised statements contain no `;` when the names do not. */
  lemma NormalisedStatementAvoids(t: Table)
    requires NamesAvoid(t, ';')
    ensures ';' !in ReplaceCrlf(Statement(t))
  {
    StatementAvoids(t, ';');
    forall c | c in ReplaceCrlf(Statement(t)) ensures c != ';' {
      ReplaceCrlfChars(Statement(t), c);
    }
  }

  /** Splitting cuts the first block's statement off at its `;`. */
  lemma SplitFirstBlock(pre: string, t: Table, rest: string)
    requires ';' !in pre && NamesAvoid(t, ';')
    ensures Split(pre + ReplaceCrlf(TableBlock(t) + rest), ';')
            == [pre + ReplaceCrlf(Statement(t))] + Split("\n\n" + ReplaceCrlf(rest), ';')
  {
    var r := ReplaceCrlf(Statement(t));
    var tail := "\n\n" + ReplaceCrlf(rest);
    NormaliseBlock(t, rest);
    assert pre + ReplaceCrlf(TableBlock(t) + rest) == (pre + r) + [';'] + tail;
    NormalisedStatementAvoids(t);
    SplitAtSeparator(pre + r, ';', tail);
  }

  /** The first piece trims to the statement and survives the filter. */
  lemma FirstPieceKept(pre: string, t: Table, pieces: seq<string>)
    requires AllSpace(pre)
    ensures NonEmpty(TrimAll([pre + ReplaceCrlf(Statement(t))] + pieces))
            == [ReplaceCrlf(Statement(t))] + NonEmpty(TrimAll(pieces))
  {
    var r := ReplaceCrlf(Statement(t));
    TrimAllCons(pre + r, pieces);
    NormalisedStatementEnds(t);
    TrimSurrounded(pre, r, "");
    assert pre + r + "" == pre + r;
    NonEmptyConcat([r], TrimAll(pieces));
  }

  /** The normalised statements of the tables, in order. */
  function Statements(ts: seq<Table>): (r: seq<string>)
    ensures |r| == |ts|
    ensures forall i :: 0 <= i < |ts| ==> r[i] == ReplaceCrlf(Statement(ts[i]))
  {
    seq(|ts|, i requires 0 <= i < |ts| => ReplaceCrlf(Statement(ts[i])))
  }

  lemma GenerateSqlCons(ts: seq<Table>)
    requires |ts| > 0
    ensures GenerateSql(ts) == TableBlock(ts[0]) + GenerateSql(ts[1..])
  {
  }

  lemma StatementsCons(ts: seq<Table>)
    requires |ts| > 0
    ensures Statements(ts) == [ReplaceCrlf(Statement(ts[0]))] + Statements(ts[1..])
  {
  }

  /** What is left after the last block, the blank line, yields no command. */
  lemma BlankTail(pre: string)
    requires AllSpace(pre) && ';' !in pre
    ensures NonEmpty(TrimAll(Split(pre + ReplaceCrlf(""), ';'))) == []
  {
    assert pre + ReplaceCrlf("") == pre;
    SplitNoSeparator(pre, ';');
    assert TrimAll([pre]) == [""];
    NonEmptyConcat([""], []);
  }

  /** The commands of the normalised script of `ts` behind a blank prefix
      `pre`: one per table, each its normalised statement. */
  lemma {:induction false} CommandsOfScript(pre: string, ts: seq<Table>)
    requires AllSpace(pre) && ';' !in pre
    requires forall i :: 0 <= i < |ts| ==> NamesAvoid(ts[i], ';')
    ensures NonEmpty(TrimAll(Split(pre + ReplaceCrlf(GenerateSql(ts)), ';'))) == Statements(ts)
    decreases |ts|
  {
    if |ts| == 0 {
      assert GenerateSql(ts) == "";
      BlankTail(pre);
    } else {
      var t, rest := ts[0], ts[1..];
      var restSql := GenerateSql(rest);
      var r := ReplaceCrlf(Statement(t));
      var pieces := Split("\n\n" + ReplaceCrlf(restSql), ';');
      GenerateSqlCons(ts);
      calc {
        NonEmpty(TrimAll(Split(pre + ReplaceCrlf(GenerateSql(ts)), ';')));
        NonEmpty(TrimAll(Split(pre + ReplaceCrlf(TableBlock(t) + restSql), ';')));
        { SplitFirstBlock(pre, t, restSql); }
        NonEmpty(TrimAll([pre + r] + pieces));
        { FirstPieceKept(pre, t, pieces); }
        [r] + NonEmpty(TrimAll(pieces));
        { CommandsOfScript("\n\n", rest); }
        [r] + Statements(rest);
      }
      StatementsCons(ts);
    }
  }

  /** A generated script deploys as one command per table, in table order:
      each command is the table's normalised statement. */
  lemma GeneratedScriptCommands(ts: seq<Table>)
    requires forall i :: 0 <= i < |ts| ==> NamesAvoid(ts[i], ';')
    ensures SplitCommands(GenerateSql(ts)) == Statements(ts)
    ensures |SplitCommands(GenerateSql(ts))| == |ts|
  {
    CommandsOfScript("", ts);
    assert "" + ReplaceCrlf(GenerateSql(ts)) == ReplaceCrlf(GenerateSql(ts));
  }

  /** Without carriage returns, normalisation leaves a statement as it is,
      and a statement begins with its table's header. */
  lemma StatementVerbatim(t: Table)
    requires NamesAvoid(t, '\r')
    ensures ReplaceCrlf(Statement(t)) == Statement(t)
    ensures StartsWith(Statement(t), Header(t))
  {
    StatementAvoids(t, '\r');
    ReplaceCrlfNoCr(Statement(t));
    StartsWithConcat(Header(t), Columns(t) + "\n)", Header(t));
    assert Statement(t) == Header(t) + (Columns(t) + "\n)");
  }

  /** Without carriage returns in the names either, each command is exactly
      the table's statement, beginning with its header. */
  lemma GeneratedScriptCommandsVerbatim(ts: seq<Table>, i: nat)
    requires forall j :: 0 <= j < |ts| ==> NamesAvoid(ts[j], ';') && NamesAvoid(ts[j], '\r')
    requires i < |ts|
    ensures |SplitCommands(GenerateSql(ts))| == |ts|
    ensures SplitCommands(GenerateSql(ts))[i] == Statement(ts[i])
    ensures StartsWith(SplitCommands(GenerateSql(ts))[i], Header(ts[i]))
  {
    GeneratedScriptCommands(ts);
    StatementVerbatim(ts[i]);
  }
}

=== FILE: JsString.dfy ===
/** The JavaScript `String.prototype` operations the modelled code relies on
    (ECMA-262 semantics), on strings as sequences of code points. */
module JsString {

  /** ECMAScript WhiteSpace and LineTerminator code points: what `trim` removes
      and what the regular-expression class `\s` matches. */
  predicate IsSpace(c: char) {
    || c == '\t' || c == '\n' || c == '\U{000B}' || c == '\U{000C}' || c == '\r' || c == ' '
    || c == '\U{00A0}' || c == '\U{1680}' || ('\U{2000}' <= c <= '\U{200A}')
    || c == '\U{2028}' || c == '\U{2029}' || c == '\U{202F}' || c == '\U{205F}'
    || c == '\U{3000}' || c == '\U{FEFF}'
  }

  predicate AllSpace(s: string) {
    forall k :: 0 <= k < |s| ==> IsSpace(s[k])
  }

  predicate IsDigit(c: char) {
    '0' <= c <= '9'
  }

  // ---------------------------------------------------------------------------
  // trim

  /** Every position in `[i, j)` holds whitespace. */
  predicate SpaceBetween(s: string, i: int, j: int)
    requires 0 <= i && j <= |s|
  {
    forall k :: i <= k < j ==> IsSpace(s[k])
  }

  /** The first position at or after `i` that is not whitespace, or `|s|`. */
  function SkipSpace(s: string, i: nat): (m: nat)
    requires i <= |s|
    ensures i <= m <= |s|
    ensures SpaceBetween(s, i, m)
    ensures m == |s| || !IsSpace(s[m])
    decreases |s| - i
  {
    if i < |s| && IsSpace(s[i]) then SkipSpace(s, i + 1) else i
  }

  /** The position just after the last non-whitespace character before `j`
      and at or after `lo`, or `lo`. */
  function SkipSpaceBack(s: string, lo: nat, j: nat): (m: nat)
    requires lo <= j <= |s|
    ensures lo <= m <= j
    ensures SpaceBetween(s, m, j)
    ensures m == lo || !IsSpace(s[m - 1])
    decreases j
  {
    if lo < j && IsSpace(s[j - 1]) then SkipSpaceBack(s, lo, j - 1) else j
  }

  /** Where the trimmed text starts. */
  function TrimStartIndex(s: string): nat
    ensures TrimStartIndex(s) <= |s|
  {
    SkipSpace(s, 0)
  }

  /** `s.trim()`: `s` without its leading and trailing whitespace. */
  function Trim(s: string): (r: string)
    ensures TrimStartIndex(s) + |r| <= |s|
    ensures r == s[TrimStartIndex(s)..TrimStartIndex(s) + |r|]
    ensures SpaceBetween(s, 0, TrimStartIndex(s)) && SpaceBetween(s, TrimStartIndex(s) + |r|, |s|)
    ensures r == [] || (!IsSpace(r[0]) && !IsSpace(r[|r| - 1]))
    ensures r == [] <==> AllSpace(s)
  {
    var i := SkipSpace(s, 0);
    var j := SkipSpaceBack(s, i, |s|);
    s[i..j]
  }

  /** `SkipSpace` stops exactly at the first non-whitespace position. */
  lemma {:induction false} SkipSpaceAt(s: string, i: nat, m: nat)
    requires i <= m <= |s|
    requires SpaceBetween(s, i, m)
    requires m == |s| || !IsSpace(s[m])
    ensures SkipSpace(s, i) == m
    decreases m - i
  {
    if i < m {
      SkipSpaceAt(s, i + 1, m);
    }
  }

  /** `SkipSpaceBack` stops exactly after the last non-whitespace position. */
  lemma {:induction false} SkipSpaceBackAt(s: string, lo: nat, j: nat, m: nat)
    requires lo <= m <= j <= |s|
    requires SpaceBetween(s, m, j)
    requires m == lo || !IsSpace(s[m - 1])
    ensures SkipSpaceBack(s, lo, j) == m
    decreases j - m
  {
    if m < j {
      SkipSpaceBackAt(s, lo, j - 1, m);
    }
  }

  /** Trimming a non-empty text with non-whitespace ends, surrounded by
      whitespace, gives back the text. */
  lemma TrimSurrounded(pre: string, x: string, post: string)
    requires AllSpace(pre) && AllSpace(post)
    requires x != [] && !IsSpace(x[0]) && !IsSpace(x[|x| - 1])
    ensures Trim(pre + x + post) == x
  {
    var s := pre + x + post;
    var i := |pre|;
    var j := |pre| + |x|;
    assert s[i] == x[0];
    assert s[j - 1] == x[|x| - 1];
    assert SpaceBetween(s, 0, i) by {
      forall k | 0 <= k < i ensures IsSpace(s[k]) { assert s[k] == pre[k]; }
    }
    assert SpaceBetween(s, j, |s|) by {
      forall k | j <= k < |s| ensures IsSpace(s[k]) { assert s[k] == post[k - j]; }
    }
    SkipSpaceAt(s, 0, i);
    SkipSpaceBackAt(s, i, |s|, j);
    assert s[i..j] == x;
  }

  /** A text with non-whitespace ends is its own trim. */
  lemma TrimIdentity(x: string)
    requires x == [] || (!IsSpace(x[0]) && !IsSpace(x[|x| - 1]))
    ensures Trim(x) == x
  {
    if x != [] {
      TrimSurrounded([], x, []);
      assert [] + x + [] == x;
    }
  }

  /** Trimming is idempotent. */
  lemma TrimIdempotent(s: string)
    ensures Trim(Trim(s)) == Trim(s)
  {
    TrimIdentity(Trim(s));
  }

  // ---------------------------------------------------------------------------
  // searching

  /** `s.indexOf(c)` for a one-character pattern: the first position of `c`, or -1. */
  function IndexOf(s: string, c: char): (r: int)
    ensures -1 <= r < |s|
    ensures r == -1 <==> c !in s
    ensures r >= 0 ==> s[r] == c && c !in s[..r]
  {
    if |s| == 0 then -1
    else if s[0] == c then 0
    else
      var k := IndexOf(s[1..], c);
      assert s[1..][..if k < 0 then 0 else k] == s[1..if k < 0 then 1 else k + 1];
      if k < 0 then -1 else k + 1
  }

  /** `s.lastIndexOf(c)` for a one-character pattern: the last position of `c`, or -1. */
  function LastIndexOf(s: string, c: char): (r: int)
    ensures -1 <= r < |s|
    ensures r == -1 <==> c !in s
    ensures r >= 0 ==> s[r] == c && forall j :: r < j < |s| ==> s[j] != c
  {
    LastIndexBelow(s, c, |s|)
  }

  /** The last position of `c` before position `n`, or -1. */
  function LastIndexBelow(s: string, c: char, n: nat): (r: int)
    requires n <= |s|
    ensures -1 <= r < n
    ensures r == -1 <==> forall j :: 0 <= j < n ==> s[j] != c
    ensures r >= 0 ==> s[r] == c && forall j :: r < j < n ==> s[j] != c
  {
    if n == 0 then -1
    else if s[n - 1] == c then n - 1
    else LastIndexBelow(s, c, n - 1)
  }

  /** `s.startsWith(p)`. */
  predicate StartsWith(s: string, p: string) {
    |p| <= |s| && s[..|p|] == p
  }

  /** `s.endsWith(p)`. */
  predicate EndsWith(s: string, p: string) {
    |p| <= |s| && s[|s| - |p|..] == p
  }

  /** `s.includes(p)`: `p` occurs in `s` at some position. */
  predicate Contains(s: string, p: string)
    decreases |s|
  {
    StartsWith(s, p) || (|s| > 0 && Contains(s[1..], p))
  }

  /** `p` occurs in `s` starting at position `i`. */
  predicate OccursAt(s: string, p: string, i: int) {
    0 <= i <= |s| - |p| && s[i..i + |p|] == p
  }

  /** `Contains` holds exactly when `p` occurs at some position. */
  lemma {:induction false} ContainsIffOccurs(s: string, p: string)
    ensures Contains(s, p) <==> exists i :: OccursAt(s, p, i)
    decreases |s|
  {
    if StartsWith(s, p) {
      assert OccursAt(s, p, 0);
    }
    if |s| > 0 {
      ContainsIffOccurs(s[1..], p);
      if exists i :: OccursAt(s, p, i) {
        var i :| OccursAt(s, p, i);
        if i > 0 {
          assert s[1..][i - 1..i - 1 + |p|] == s[i..i + |p|];
          assert OccursAt(s[1..], p, i - 1);
        }
      }
      if Contains(s[1..], p) {
        var i :| OccursAt(s[1..], p, i);
        assert s[i + 1..i + 1 + |p|] == s[1..][i..i + |p|];
        assert OccursAt(s, p, i + 1);
      }
    } else if exists i :: OccursAt(s, p, i) {
      var i :| OccursAt(s, p, i);
      assert i == 0;
    }
  }

  /** An occurrence at a known position makes `Contains` hold. */
  lemma OccursAtContains(s: string, p: string, i: int)
    requires OccursAt(s, p, i)
    ensures Contains(s, p)
  {
    ContainsIffOccurs(s, p);
  }

  lemma StartsWithConcat(x: string, y: string, h: string)
    requires StartsWith(x, h)
    ensures StartsWith(x + y, h)
  {
    assert (x + y)[..|h|] == x[..|h|];
  }

  lemma EndsWithConcat(x: string, y: string, e: string)
    requires EndsWith(y, e)
    ensures EndsWith(x + y, e)
  {
    assert (x + y)[|x + y| - |e|..] == y[|y| - |e|..];
  }

  lemma EndsWithAppend(x: string, e: string, z: string)
    requires EndsWith(x, e)
    ensures EndsWith(x + z, e + z)
  {
    assert (x + z)[|x + z| - |e + z|..] == x[|x| - |e|..] + z;
  }

  /** The middle part of a concatenation occurs right after the first part,
      and so does every prefix of it. */
  lemma OccursInMiddle(a: string, x: string, c: string, h: string)
    requires StartsWith(x, h)
    ensures OccursAt(a + x + c, x, |a|)
    ensures OccursAt(a + x + c, h, |a|)
  {
    var s := a + x + c;
    assert s[|a|..|a| + |x|] == x;
    assert s[|a|..|a| + |h|] == x[..|h|];
  }

  /** An occurrence inside a concatenation is an occurrence in the whole. */
  lemma ContainsInfix(a: string, p: string, b: string)
    ensures Contains(a + p + b, p)
  {
    assert (a + p + b)[|a|..|a| + |p|] == p;
    OccursAtContains(a + p + b, p, |a|);
  }

  /** Clamps a position into `[0, n]`, as `substring` does with its arguments. */
  function Clamp(k: int, n: nat): (r: nat)
    ensures r <= n
    ensures 0 <= k <= n ==> r == k
  {
    if k < 0 then 0 else if k > n then n else k
  }

  /** `s.substring(start, end)`: both positions are clamped into `[0, |s|]` and
      swapped when `start > end`. */
  function Substring(s: string, start: int, end: int): (r: string)
    ensures |r| <= |s|
  {
    var a := Clamp(start, |s|);
    var b := Clamp(end, |s|);
    if a <= b then s[a..b] else s[b..a]
  }

  /** The argument order of `substring` does not matter. */
  lemma SubstringSymmetric(s: string, start: int, end: int)
    ensures Substring(s, start, end) == Substring(s, end, start)
  {
  }

  // ---------------------------------------------------------------------------
  // lower case

  /** Lower-cases ASCII letters and leaves every other code point alone. */
  function LowerChar(c: char): (d: char)
    ensures 'A' <= c <= 'Z' ==> 'a' <= d <= 'z' && d as int == c as int + 32
    ensures !('A' <= c <= 'Z') ==> d == c
  {
    if 'A' <= c <= 'Z' then (c as int + 32) as char else c
  }

  /** `s.toLowerCase()`, restricted to the ASCII letters. */
  function ToLower(s: string): (r: string)
    ensures |r| == |s|
    ensures forall i :: 0 <= i < |s| ==> r[i] == LowerChar(s[i])
  {
    seq(|s|, i requires 0 <= i < |s| => LowerChar(s[i]))
  }

  predicate HasNoUpper(s: string) {
    forall i :: 0 <= i < |s| ==> !('A' <= s[i] <= 'Z')
  }

  /** The result has no upper-case ASCII letter and lower-casing it again changes nothing. */
  lemma ToLowerIdempotent(s: string)
    ensures HasNoUpper(ToLower(s))
    ensures ToLower(ToLower(s)) == ToLower(s)
  {
  }

  lemma ToLowerConcat(a: string, b: string)
    ensures ToLower(a + b) == ToLower(a) + ToLower(b)
  {
  }

  // ---------------------------------------------------------------------------
  // split and join with a one-character separator

  /** Number of occurrences of `c` in `s`. */
  function Count(s: string, c: char): (n: nat)
    ensures n <= |s|
    ensures n == 0 <==> c !in s
  {
    if |s| == 0 then 0 else (if s[0] == c then 1 else 0) + Count(s[1..], c)
  }

  /** `xs.join(sep)`: the pieces with `sep` between consecutive ones; `""` for no pieces. */
  function Join(xs: seq<string>, sep: string): (r: string)
  {
    if |xs| == 0 then ""
    else if |xs| == 1 then xs[0]
    else xs[0] + sep + Join(xs[1..], sep)
  }

  /** A character in neither the pieces nor the separator is not in the join. */
  lemma {:induction false} JoinAvoids(xs: seq<string>, sep: string, c: char)
    requires c !in sep
    requires forall k :: 0 <= k < |xs| ==> c !in xs[k]
    ensures c !in Join(xs, sep)
    decreases |xs|
  {
    if |xs| > 1 {
      JoinAvoids(xs[1..], sep, c);
    }
  }

  /** A joined string is the join of a prefix of the pieces, the separator,
      and the join of the rest. */
  lemma {:induction false} JoinSplitAt(xs: seq<string>, sep: string, k: nat)
    requires 0 < k < |xs|
    ensures Join(xs, sep) == Join(xs[..k], sep) + sep + Join(xs[k..], sep)
    decreases k
  {
    if k > 1 {
      JoinSplitAt(xs[1..], sep, k - 1);
      assert xs[1..][..k - 1] == xs[..k][1..];
      assert xs[1..][k - 1..] == xs[k..];
    }
  }

  /** Where piece `k` starts in `Join(xs, sep)`: after the first `k` pieces and `k` separators. */
  function JoinOffset(xs: seq<string>, sep: string, k: nat): nat
    requires k <= |xs|
  {
    if k == 0 then 0 else |Join(xs[..k], sep)| + |sep|
  }

  /** Every piece appears in the join at its offset, preceded by a separator
      unless it is the first, and the join ends with the last piece: pieces
      keep their order and there is no trailing separator. */
  lemma JoinPieces(xs: seq<string>, sep: string, k: nat)
    requires k < |xs|
    ensures OccursAt(Join(xs, sep), xs[k], JoinOffset(xs, sep, k))
    ensures k > 0 ==> OccursAt(Join(xs, sep), sep, JoinOffset(xs, sep, k) - |sep|)
    ensures EndsWith(Join(xs, sep), xs[|xs| - 1])
  {
    JoinEndsWithLast(xs, sep);
    if k == 0 {
      JoinStartsWithFirst(xs, sep);
    } else {
      JoinPieceAfter(xs, sep, k);
    }
  }

  lemma JoinPieceAfter(xs: seq<string>, sep: string, k: nat)
    requires 0 < k < |xs|
    ensures OccursAt(Join(xs, sep), xs[k], JoinOffset(xs, sep, k))
    ensures OccursAt(Join(xs, sep), sep, JoinOffset(xs, sep, k) - |sep|)
  {
    JoinSplitAt(xs, sep, k);
    var a := Join(xs[..k], sep);
    var b := Join(xs[k..], sep);
    JoinStartsWithFirst(xs[k..], sep);
    var j := a + sep + b;
    assert j[|a|..|a| + |sep|] == sep;
    assert j[|a| + |sep|..|a| + |sep| + |xs[k]|] == b[..|xs[k]|];
  }

  lemma JoinStartsWithFirst(xs: seq<string>, sep: string)
    requires |xs| > 0
    ensures StartsWith(Join(xs, sep), xs[0])
  {
    if |xs| > 1 {
      assert Join(xs, sep) == xs[0] + (sep + Join(xs[1..], sep));
    }
  }

  lemma {:induction false} JoinEndsWithLast(xs: seq<string>, sep: string)
    requires |xs| > 0
    ensures EndsWith(Join(xs, sep), xs[|xs| - 1])
    decreases |xs|
  {
    if |xs| > 1 {
      JoinEndsWithLast(xs[1..], sep);
      assert Join(xs, sep) == (xs[0] + sep) + Join(xs[1..], sep);
    }
  }

  /** `s.split(sep)` for a one-character separator: the maximal pieces between
      separators, in order; `[""]` for the empty string. */
  function Split(s: string, sep: char): (r: seq<string>)
    ensures |r| >= 1
    ensures forall k :: 0 <= k < |r| ==> sep !in r[k]
  {
    if |s| == 0 then [""]
    else if s[0] == sep then [""] + Split(s[1..], sep)
    else
      var rest := Split(s[1..], sep);
      [[s[0]] + rest[0]] + rest[1..]
  }

  /** Splitting yields one more piece than there are separators. */
  lemma {:induction false} SplitLength(s: string, sep: char)
    ensures |Split(s, sep)| == Count(s, sep) + 1
    decreases |s|
  {
    if |s| > 0 {
      SplitLength(s[1..], sep);
    }
  }

  /** Joining the pieces with the separator gives back the string. */
  lemma {:induction false} SplitJoin(s: string, sep: char)
    ensures Join(Split(s, sep), [sep]) == s
    decreases |s|
  {
    if |s| > 0 {
      var rest := Split(s[1..], sep);
      SplitJoin(s[1..], sep);
      assert s == [s[0]] + s[1..];
      if s[0] == sep {
        assert Split(s, sep)[1..] == rest;
      } else if |rest| == 1 {
        assert Split(s, sep) == [[s[0]] + rest[0]];
      } else {
        var r := Split(s, sep);
        var x, tail := rest[0], Join(rest[1..], [sep]);
        assert r == [[s[0]] + x] + rest[1..];
        assert r[1..] == rest[1..];
        assert Join(r, [sep]) == ([s[0]] + x) + [sep] + tail;
        assert Join(rest, [sep]) == x + [sep] + tail;
        assert ([s[0]] + x) + [sep] + tail == [s[0]] + (x + [sep] + tail);
      }
    }
  }

  /** A string without the separator is a single piece. */
  lemma {:induction false} SplitNoSeparator(s: string, sep: char)
    requires sep !in s
    ensures Split(s, sep) == [s]
    decreases |s|
  {
    if |s| > 0 {
      SplitNoSeparator(s[1..], sep);
      assert [s[0]] + s[1..] == s;
    }
  }

  /** A separator after a separator-free prefix ends the first piece. */
  lemma {:induction false} SplitAtSeparator(a: string, sep: char, b: string)
    requires sep !in a
    ensures Split(a + [sep] + b, sep) == [a] + Split(b, sep)
    decreases |a|
  {
    if |a| == 0 {
      assert a + [sep] + b == [sep] + b;
      assert ([sep] + b)[1..] == b;
    } else {
      var s := a + [sep] + b;
      assert s[1..] == a[1..] + [sep] + b;
      SplitAtSeparator(a[1..], sep, b);
      assert [a[0]] + a[1..] == a;
    }
  }

  /** Splitting at a separator between two texts splits each side on its own:
      the pieces of `a`, then the pieces of `b`. */
  lemma {:induction false} SplitConcat(a: string, sep: char, b: string)
    ensures Split(a + [sep] + b, sep) == Split(a, sep) + Split(b, sep)
    decreases |a|
  {
    var s := a + [sep] + b;
    if |a| == 0 {
      assert s == [sep] + b;
      assert s[1..] == b;
    } else {
      var t := a[1..] + [sep] + b;
      assert s[0] == a[0] && s[1..] == t;
      SplitConcat(a[1..], sep, b);
      if a[0] != sep {
        var x, y := Split(a[1..], sep), Split(b, sep);
        assert Split(s, sep) == [[a[0]] + Split(t, sep)[0]] + Split(t, sep)[1..];
        assert Split(a, sep) == [[a[0]] + x[0]] + x[1..];
        ExtendHead([a[0]], x, y);
      }
    }
  }

  /** Growing the first piece of `x + y` grows the first piece of `x`. */
  lemma ExtendHead(c: string, x: seq<string>, y: seq<string>)
    requires |x| >= 1
    ensures [c + (x + y)[0]] + (x + y)[1..] == ([c + x[0]] + x[1..]) + y
  {
    assert (x + y)[0] == x[0] && (x + y)[1..] == x[1..] + y;
  }

  /** Joining separator-free pieces and splitting again gives back the pieces. */
  lemma {:induction false} JoinSplit(xs: seq<string>, sep: char)
    requires |xs| >= 1
    requires forall k :: 0 <= k < |xs| ==> sep !in xs[k]
    ensures Split(Join(xs, [sep]), sep) == xs
    decreases |xs|
  {
    if |xs| == 1 {
      SplitNoSeparator(xs[0], sep);
    } else {
      JoinSplit(xs[1..], sep);
      SplitAtSeparator(xs[0], sep, Join(xs[1..], [sep]));
      assert [xs[0]] + xs[1..] == xs;
    }
  }

  // ---------------------------------------------------------------------------
  // line endings

  /** `s` begins with a CR LF pair. */
  predicate StartsWithCrlf(s: string) {
    |s| >= 2 && s[0] == '\r' && s[1] == '\n'
  }

  /** `s.replace(/\r\n/g, '\n')`: every CR LF pair, scanning left to right, becomes LF. */
  function ReplaceCrlf(s: string): (r: string)
    ensures |r| <= |s|
  {
    if |s| == 0 then ""
    else if StartsWithCrlf(s) then ['\n'] + ReplaceCrlf(s[2..])
    else [s[0]] + ReplaceCrlf(s[1..])
  }

  lemma ConcatAssoc(x: string, y: string, z: string)
    ensures x + (y + z) == (x + y) + z
  {
  }

  /** Only carriage returns are removed: every other character keeps its count. */
  lemma {:induction false} ReplaceCrlfCount(s: string, c: char)
    requires c != '\r'
    ensures Count(ReplaceCrlf(s), c) == Count(s, c)
    decreases |s|
  {
    if StartsWithCrlf(s) {
      ReplaceCrlfCount(s[2..], c);
      assert s[1..][1..] == s[2..];
      assert (['\n'] + ReplaceCrlf(s[2..]))[1..] == ReplaceCrlf(s[2..]);
    } else if |s| > 0 {
      ReplaceCrlfCount(s[1..], c);
      assert ([s[0]] + ReplaceCrlf(s[1..]))[1..] == ReplaceCrlf(s[1..]);
    }
  }

  /** A string without carriage returns is left unchanged. */
  lemma {:induction false} ReplaceCrlfNoCr(s: string)
    requires '\r' !in s
    ensures ReplaceCrlf(s) == s
    decreases |s|
  {
    if |s| > 0 {
      ReplaceCrlfNoCr(s[1..]);
      assert [s[0]] + s[1..] == s;
    }
  }

  /** Replacement works piecewise when the first part does not end in CR. */
  lemma {:induction false} ReplaceCrlfConcat(a: string, b: string)
    requires a == [] || a[|a| - 1] != '\r'
    ensures ReplaceCrlf(a + b) == ReplaceCrlf(a) + ReplaceCrlf(b)
    decreases |a|
  {
    var s := a + b;
    if |a| == 0 {
      assert s == b;
    } else {
      var n := if StartsWithCrlf(a) then 2 else 1;
      var head := if StartsWithCrlf(a) then ['\n'] else [a[0]];
      assert s[0] == a[0];
      assert |a| >= 2 ==> s[1] == a[1];
      assert StartsWithCrlf(s) == StartsWithCrlf(a);
      assert s[n..] == a[n..] + b;
      ReplaceCrlfConcat(a[n..], b);
      calc {
        ReplaceCrlf(s);
        head + ReplaceCrlf(s[n..]);
        head + (ReplaceCrlf(a[n..]) + ReplaceCrlf(b));
        { ConcatAssoc(head, ReplaceCrlf(a[n..]), ReplaceCrlf(b)); }
        (head + ReplaceCrlf(a[n..])) + ReplaceCrlf(b);
        ReplaceCrlf(a) + ReplaceCrlf(b);
      }
    }
  }

  /** Replacement works piecewise when the second part does not start with LF. */
  lemma {:induction false} ReplaceCrlfBefore(a: string, b: string)
    requires b == [] || b[0] != '\n'
    ensures ReplaceCrlf(a + b) == ReplaceCrlf(a) + ReplaceCrlf(b)
    decreases |a|
  {
    var s := a + b;
    if |a| == 0 {
      assert s == b;
    } else if StartsWithCrlf(a) {
      assert StartsWithCrlf(s);
      assert s[2..] == a[2..] + b;
      ReplaceCrlfBefore(a[2..], b);
      ConcatAssoc(['\n'], ReplaceCrlf(a[2..]), ReplaceCrlf(b));
    } else {
      assert !StartsWithCrlf(s);
      assert s[1..] == a[1..] + b;
      ReplaceCrlfBefore(a[1..], b);
      ConcatAssoc([a[0]], ReplaceCrlf(a[1..]), ReplaceCrlf(b));
    }
  }

  /** A carriage return not followed by a line feed is kept where it is. */
  lemma LoneCrKept(a: string, b: string)
    requires b == [] || b[0] != '\n'
    ensures ReplaceCrlf(a + "\r" + b) == ReplaceCrlf(a) + "\r" + ReplaceCrlf(b)
  {
    var t := "\r" + b;
    assert a + "\r" + b == a + t;
    ReplaceCrlfBefore(a, t);
    assert !StartsWithCrlf(t) && t[1..] == b;
  }

  /** A CR LF pair becomes a single line feed, whatever surrounds it. */
  lemma CrlfBecomesLf(a: string, b: string)
    ensures ReplaceCrlf(a + "\r\n" + b) == ReplaceCrlf(a) + "\n" + ReplaceCrlf(b)
  {
    var t := "\r\n" + b;
    assert a + "\r\n" + b == a + t;
    ReplaceCrlfBefore(a, t);
    assert StartsWithCrlf(t) && t[2..] == b;
  }

  /** Line-ending normalisation introduces no new characters. */
  lemma {:induction false} ReplaceCrlfChars(s: string, c: char)
    requires c in ReplaceCrlf(s)
    ensures c in s
    decreases |s|
  {
    if StartsWithCrlf(s) {
      if c != '\n' {
        ReplaceCrlfChars(s[2..], c);
      }
    } else if |s| > 0 && c != s[0] {
      ReplaceCrlfChars(s[1..], c);
    }
  }

  // Dropping empty strings

  /** The empty strings removed, the rest kept in order (`filter(Boolean)`
      and `filter(s => s.length > 0)` on strings). */
  function NonEmpty(pieces: seq<string>): (r: seq<string>)
    ensures |r| <= |pieces|
    ensures forall k :: 0 <= k < |r| ==> r[k] != "" && r[k] in pieces
    ensures forall x :: x in pieces && x != "" ==> x in r
  {
    if |pieces| == 0 then []
    else if pieces[0] == "" then NonEmpty(pieces[1..])
    else [pieces[0]] + NonEmpty(pieces[1..])
  }

  /** The filter works piece by piece, keeping order: it is fixed by what it
      does to one piece and by distributing over concatenation. */
  lemma {:induction false} NonEmptyConcat(a: seq<string>, b: seq<string>)
    ensures NonEmpty(a + b) == NonEmpty(a) + NonEmpty(b)
    ensures NonEmpty([]) == []
    ensures forall x :: NonEmpty([x]) == if x == "" then [] else [x]
    decreases |a|
  {
    if |a| > 0 {
      assert (a + b)[0] == a[0];
      assert (a + b)[1..] == a[1..] + b;
      NonEmptyConcat(a[1..], b);
    } else {
      assert a + b == b;
    }
    forall x ensures NonEmpty([x]) == if x == "" then [] else [x] {
      assert [x][1..] == [];
    }
  }

  /** A list of empty strings filters down to nothing. */
  lemma {:induction false} NonEmptyOfBlanks(pieces: seq<string>)
    requires forall k :: 0 <= k < |pieces| ==> pieces[k] == ""
    ensures NonEmpty(pieces) == []
    decreases |pieces|
  {
    if |pieces| > 0 {
      NonEmptyOfBlanks(pieces[1..]);
    }
  }

  /** A list without empty strings passes the filter unchanged. */
  lemma {:induction false} NonEmptyOfFilled(pieces: seq<string>)
    requires forall k :: 0 <= k < |pieces| ==> pieces[k] != ""
    ensures NonEmpty(pieces) == pieces
    decreases |pieces|
  {
    if |pieces| > 0 {
      NonEmptyOfFilled(pieces[1..]);
      assert [pieces[0]] + pieces[1..] == pieces;
    }
  }
}

=== FILE: LoadingModal.dfy ===
/** The deployment progress modal: each step's status is recomputed from the
    current step number whenever the modal is open. */
module LoadingModal {

  datatype Status = Waiting | Current | Completed | Error

  datatype Step = Step(id: int, name: string, status: Status)

  /** The four deployment steps, all waiting. */
  const DefaultSteps: seq<Step> := [
    Step(1, "SQL script preparation", Waiting),
    Step(2, "Commands preparation", Waiting),
    Step(3, "Executing commands", Waiting),
    Step(4, "Completion", Waiting)
  ]

  /** The status a step gets for the current step number. */
  function StatusFor(id: int, currentStep: int): (s: Status)
    ensures s == Completed <==> id < currentStep
    ensures s == Current <==> id == currentStep
    ensures s == Waiting <==> id > currentStep
    ensures s != Error
  {
    if id < currentStep then Completed
    else if id == currentStep then Current
    else Waiting
  }

  /** The `steps.map` of the effect: every step keeps its id and label and
      gets the status for `currentStep`. */
  function MapSteps(steps: seq<Step>, currentStep: int): (r: seq<Step>)
    ensures |r| == |steps|
    ensures forall k :: 0 <= k < |r| ==>
      && r[k].id == steps[k].id
      && r[k].name == steps[k].name
      && r[k].status == StatusFor(steps[k].id, currentStep)
  {
    seq(|steps|, k requires 0 <= k < |steps| => steps[k].(status := StatusFor(steps[k].id, currentStep)))
  }

  /** The effect: statuses are recomputed only while the modal is open;
      otherwise the displayed steps stay as they were. */
  function Refresh(active: seq<Step>, isOpen: bool, steps: seq<Step>, currentStep: int): (r: seq<Step>)
    ensures !isOpen ==> r == active
    ensures isOpen ==> |r| == |steps|
    ensures isOpen ==> forall k :: 0 <= k < |r| ==>
      && r[k].id == steps[k].id
      && r[k].name == steps[k].name
      && r[k].status == StatusFor(steps[k].id, currentStep)
  {
    if isOpen then MapSteps(steps, currentStep) else active
  }

  predicate DistinctIds(steps: seq<Step>) {
    forall i, j :: 0 <= i < j < |steps| ==> steps[i].id != steps[j].id
  }

  /** The positions of the steps marked current. */
  function CurrentPositions(steps: seq<Step>): (ps: set<nat>)
    ensures forall k: nat :: k in ps <==> k < |steps| && steps[k].status == Current
  {
    set k: nat | k < |steps| && steps[k].status == Current
  }

  /** The mapping never produces the error status, and a step is current
      exactly when its id is the current step number. */
  lemma MapStepsStatuses(steps: seq<Step>, currentStep: int, k: nat)
    requires k < |steps|
    ensures MapSteps(steps, currentStep)[k].status != Error
    ensures MapSteps(steps, currentStep)[k].status == Completed <==> steps[k].id < currentStep
    ensures MapSteps(steps, currentStep)[k].status == Current <==> steps[k].id == currentStep
    ensures MapSteps(steps, currentStep)[k].status == Waiting <==> steps[k].id > currentStep
  {
  }

  /** With distinct ids and the current step number among them, exactly one
      step is current. */
  lemma ExactlyOneCurrent(steps: seq<Step>, currentStep: int, k: nat)
    requires DistinctIds(steps)
    requires k < |steps| && steps[k].id == currentStep
    ensures CurrentPositions(MapSteps(steps, currentStep)) == {k}
  {
    var r := MapSteps(steps, currentStep);
    forall j: nat ensures j in CurrentPositions(r) <==> j == k {
      if j < |steps| && j != k {
        assert steps[j].id != steps[k].id;
      }
    }
  }

  /** When the current step number is no step's id, no step is current. */
  lemma NoCurrentOutsideIds(steps: seq<Step>, currentStep: int)
    requires forall k :: 0 <= k < |steps| ==> steps[k].id != currentStep
    ensures CurrentPositions(MapSteps(steps, currentStep)) == {}
  {
    var r := MapSteps(steps, currentStep);
    forall j: nat ensures j !in CurrentPositions(r) {
    }
  }

  /** The default steps have distinct ids 1 to 4, in order, and are all waiting. */
  lemma DefaultStepsShape()
    ensures |DefaultSteps| == 4
    ensures forall k :: 0 <= k < 4 ==> DefaultSteps[k].id == k + 1 && DefaultSteps[k].status == Waiting
    ensures DistinctIds(DefaultSteps)
  {
  }

  /** The order waiting, current, completed. */
  function Rank(s: Status): nat {
    match s
    case Waiting => 0
    case Current => 1
    case Completed => 2
    case Error => 3
  }

  /** Raising the current step number only moves a status forward. */
  lemma StatusMonotone(id: int, a: int, b: int)
    requires a <= b
    ensures Rank(StatusFor(id, a)) <= Rank(StatusFor(id, b))
    ensures StatusFor(id, b) == Waiting ==> StatusFor(id, a) == Waiting
    ensures StatusFor(id, a) == Completed ==> StatusFor(id, b) == Completed
  {
  }

  /** For the default steps and step number `n` in 1..4, steps before `n` are
      completed, step `n` is current, and the rest wait. */
  lemma DefaultProgress(n: int, k: nat)
    requires 1 <= n <= 4 && k < 4
    ensures MapSteps(DefaultSteps, n)[k].status == (if k + 1 < n then Completed else if k + 1 == n then Current else Waiting)
    ensures CurrentPositions(MapSteps(DefaultSteps, n)) == {n - 1}
  {
    DefaultStepsShape();
    ExactlyOneCurrent(DefaultSteps, n, n - 1);
  }
}

=== FILE: MessageList.dfy ===
/** How a chat message is rendered: a pending message shows a placeholder;
    otherwise the content is shown as an SQL block, as a numbered list cut at
    the markers `/[0-9]+\.\s+/`, or as plain text. Rendering is modelled as a
    datatype of render kinds rather than markup. */
module MessageList {
  import opened Wrappers
  import opened JsString
  import opened Chat

  datatype ListItem = ListItem(number: nat, text: string)

  datatype RenderKind =
    | LoadingPlaceholder
    | SqlBlock(code: string)
    | NumberedList(intro: Option<string>, items: seq<ListItem>)
    | Plain(text: string)

  const SqlMarker: string := "create table"
  const ListMarker: string := "The main tables needed for"

  // The list-marker pattern `[0-9]+\.\s+`

  /** The end of the run of digits starting at `i`. */
  function SkipDigits(s: string, i: nat): (m: nat)
    requires i <= |s|
    ensures i <= m <= |s|
    ensures forall k :: i <= k < m ==> IsDigit(s[k])
    ensures m == |s| || !IsDigit(s[m])
    decreases |s| - i
  {
    if i < |s| && IsDigit(s[i]) then SkipDigits(s, i + 1) else i
  }

  lemma {:induction false} SkipDigitsAt(s: string, i: nat, m: nat)
    requires i <= m <= |s|
    requires forall k :: i <= k < m ==> IsDigit(s[k])
    requires m == |s| || !IsDigit(s[m])
    ensures SkipDigits(s, i) == m
    decreases m - i
  {
    if i < m {
      SkipDigitsAt(s, i + 1, m);
    }
  }

  /** Where a match of the pattern starting at `q` ends, if there is one. The
      digits and the whitespace are matched greedily, and backing off the
      digits can never put a `.` after them, so this is the only match at `q`. */
  function MarkerEnd(s: string, q: nat): (e: Option<nat>)
    requires q <= |s|
    ensures e.Some? ==> q + 3 <= e.value <= |s|
  {
    var d := SkipDigits(s, q);
    if q < d && d + 1 < |s| && s[d] == '.' && IsSpace(s[d + 1]) then Some(SkipSpace(s, d + 1)) else None
  }

  /** A non-empty run of digits. */
  predicate Digits(s: string) {
    |s| > 0 && forall k :: 0 <= k < |s| ==> IsDigit(s[k])
  }

  /** A non-empty run of whitespace. */
  predicate Spaces(s: string) {
    |s| > 0 && AllSpace(s)
  }

  /** `m` is a string the pattern `[0-9]+\.\s+` matches in full: digits,
      one `.`, whitespace. */
  predicate Pattern(m: string) {
    exists d :: 0 < d < |m| && Digits(m[..d]) && m[d] == '.' && Spaces(m[d + 1..])
  }

  /** `MarkerEnd` finds the greedy match: `Some(e)` when `s[q..e]` matches the
      pattern and no longer match starts at `q`, and `None` when no match
      starts at `q` at all. */
  lemma MarkerEndMatches(s: string, q: nat)
    requires q <= |s|
    ensures MarkerEnd(s, q).Some? ==>
      && Pattern(s[q..MarkerEnd(s, q).value])
      && (MarkerEnd(s, q).value == |s| || !IsSpace(s[MarkerEnd(s, q).value]))
      && forall e :: q < e <= |s| && Pattern(s[q..e]) ==> e <= MarkerEnd(s, q).value
    ensures MarkerEnd(s, q).None? ==> forall e :: q < e <= |s| ==> !Pattern(s[q..e])
  {
    forall e | q < e <= |s| && Pattern(s[q..e])
      ensures MarkerEnd(s, q).Some? && e <= MarkerEnd(s, q).value
    {
      MatchWithin(s, q, e);
    }
    if MarkerEnd(s, q).Some? {
      MarkerEndIsPattern(s, q);
    }
  }

  lemma MarkerEndIsPattern(s: string, q: nat)
    requires q <= |s| && MarkerEnd(s, q).Some?
    ensures Pattern(s[q..MarkerEnd(s, q).value])
  {
    var d := SkipDigits(s, q);
    var e := MarkerEnd(s, q).value;
    var m := s[q..e];
    assert m[..d - q] == s[q..d];
    assert m[d - q + 1..] == s[d + 1..e];
    assert Digits(m[..d - q]) && m[d - q] == '.' && Spaces(m[d - q + 1..]);
  }

  /** Any match starting at `q` ends no later than the one `MarkerEnd` finds. */
  lemma MatchWithin(s: string, q: nat, e: nat)
    requires q < e <= |s| && Pattern(s[q..e])
    ensures MarkerEnd(s, q).Some? && e <= MarkerEnd(s, q).value
  {
    var m := s[q..e];
    var dd :| 0 < dd < |m| && Digits(m[..dd]) && m[dd] == '.' && Spaces(m[dd + 1..]);
    PatternInPlace(s, q, e, dd);
    SkipDigitsAt(s, q, q + dd);
    SpaceRunWithin(s, q + dd + 1, e);
  }

  /** Skipping whitespace passes over a whole run of it. */
  lemma SpaceRunWithin(s: string, i: nat, e: nat)
    requires i <= e <= |s| && SpaceBetween(s, i, e)
    ensures e <= SkipSpace(s, i)
  {
  }

  /** The parts of a match `s[q..e]` whose dot is at `q + dd`, read in `s`. */
  lemma PatternInPlace(s: string, q: nat, e: nat, dd: nat)
    requires q < e <= |s| && 0 < dd < e - q
    requires Digits(s[q..e][..dd]) && s[q..e][dd] == '.' && Spaces(s[q..e][dd + 1..])
    ensures forall k :: q <= k < q + dd ==> IsDigit(s[k])
    ensures s[q + dd] == '.'
    ensures q + dd + 1 < e && SpaceBetween(s, q + dd + 1, e)
  {
    assert s[q..e][..dd] == s[q..q + dd];
    assert s[q..e][dd + 1..] == s[q + dd + 1..e];
  }

  /** No match of the pattern starts anywhere in `s`. */
  predicate NoMarker(s: string) {
    forall j :: 0 <= j <= |s| ==> MarkerEnd(s, j).None?
  }

  /** A string that is exactly one match of the pattern. */
  predicate IsMarker(m: string) {
    |m| > 0 && MarkerEnd(m, 0) == Some(|m|)
  }

  // String.prototype.split with the pattern

  /** The split pieces of `s[p..]`, where no match starts in `[p, q)`:
      matches are looked for at `q`, `q + 1`, ..., and each one found ends a
      piece. */
  function PiecesFrom(s: string, p: nat, q: nat): (r: seq<string>)
    requires p <= q <= |s|
    ensures |r| >= 1
    decreases |s| - q
  {
    if q == |s| then [s[p..]]
    else match MarkerEnd(s, q)
      case None => PiecesFrom(s, p, q + 1)
      case Some(e) => [s[p..q]] + PiecesFrom(s, e, e)
  }

  /** The matched markers of `s[q..]`, in order, found by the same scan. */
  function MarkersFrom(s: string, q: nat): (r: seq<string>)
    requires q <= |s|
    decreases |s| - q
  {
    if q == |s| then []
    else match MarkerEnd(s, q)
      case None => MarkersFrom(s, q + 1)
      case Some(e) => [s[q..e]] + MarkersFrom(s, e)
  }

  /** `content.split(/[0-9]+\.\s+/)`. */
  function SplitMarkers(s: string): seq<string> {
    PiecesFrom(s, 0, 0)
  }

  /** The pieces put back together with the markers between them. */
  function Interleave(pieces: seq<string>, markers: seq<string>): string
    requires |pieces| == |markers| + 1
    decreases |markers|
  {
    if |markers| == 0 then pieces[0]
    else pieces[0] + markers[0] + Interleave(pieces[1..], markers[1..])
  }

  /** Where piece `k` starts in the text the pieces and markers interleave
      into: after every earlier piece and marker. */
  function PieceStart(pieces: seq<string>, markers: seq<string>, k: nat): nat
    requires |pieces| == |markers| + 1 && k < |pieces|
  {
    if k == 0 then 0
    else PieceStart(pieces, markers, k - 1) + |pieces[k - 1]| + |markers[k - 1]|
  }

  /** Putting one piece and one marker in front shifts every later start by
      their lengths. */
  lemma {:induction false} PieceStartCons(x: string, y: string, pieces: seq<string>, markers: seq<string>, k: nat)
    requires |pieces| == |markers| + 1 && k < |pieces|
    ensures PieceStart([x] + pieces, [y] + markers, k + 1) == |x| + |y| + PieceStart(pieces, markers, k)
    decreases k
  {
    var ps, ms := [x] + pieces, [y] + markers;
    if k > 0 {
      PieceStartCons(x, y, pieces, markers, k - 1);
      assert ps[k] == pieces[k - 1] && ms[k] == markers[k - 1];
    }
  }

  /** The split loses nothing: the pieces with the markers between them give
      back the scanned text, and there is one marker fewer than pieces. */
  lemma {:induction false} PiecesReassemble(s: string, p: nat, q: nat)
    requires p <= q <= |s|
    ensures |PiecesFrom(s, p, q)| == |MarkersFrom(s, q)| + 1
    ensures Interleave(PiecesFrom(s, p, q), MarkersFrom(s, q)) == s[p..]
    decreases |s| - q
  {
    if q < |s| {
      match MarkerEnd(s, q)
      case None =>
        PiecesReassemble(s, p, q + 1);
      case Some(e) =>
        PiecesReassemble(s, e, e);
        var ps, ms := PiecesFrom(s, p, q), MarkersFrom(s, q);
        assert ps == [s[p..q]] + PiecesFrom(s, e, e);
        assert ms == [s[q..e]] + MarkersFrom(s, e);
        assert Interleave(ps, ms) == s[p..q] + s[q..e] + Interleave(PiecesFrom(s, e, e), MarkersFrom(s, e));
        SliceThree(s, p, q, e);
    }
  }

  lemma SliceThree(s: string, p: nat, q: nat, e: nat)
    requires p <= q <= e <= |s|
    ensures s[p..q] + s[q..e] + s[e..] == s[p..]
  {
    assert s[p..q] + s[q..e] == s[p..e];
    assert s[p..e] + s[e..] == s[p..];
  }

  /** Every marker found is one whole match of the pattern. */
  lemma {:induction false} MarkersAreMatches(s: string, q: nat)
    requires q <= |s|
    ensures forall k :: 0 <= k < |MarkersFrom(s, q)| ==> IsMarker(MarkersFrom(s, q)[k])
    decreases |s| - q
  {
    if q < |s| {
      match MarkerEnd(s, q)
      case None =>
        MarkersAreMatches(s, q + 1);
      case Some(e) =>
        MarkersAreMatches(s, e);
        MatchInSlice(s, q, e);
    }
  }

  /** A match of `s` at `q` ending at `e` is, cut out, a match on its own. */
  lemma MatchInSlice(s: string, q: nat, e: nat)
    requires q <= |s| && MarkerEnd(s, q) == Some(e)
    ensures IsMarker(s[q..e])
  {
    var m := s[q..e];
    var d := SkipDigits(s, q);
    SkipDigitsAt(m, 0, d - q);
    var w := SkipSpace(s, d + 1);
    assert w == e;
    SkipSpaceAt(m, d + 1 - q, e - q);
  }

  /** A match inside a slice is a match of the whole string at the
      corresponding position. */
  lemma MatchFromSlice(s: string, p: nat, q: nat, j: nat)
    requires p <= q <= |s| && j <= q - p
    ensures MarkerEnd(s[p..q], j).Some? ==> MarkerEnd(s, p + j).Some? && p + j < q
  {
    var t := s[p..q];
    if MarkerEnd(t, j).Some? {
      var d := SkipDigits(t, j);
      SkipDigitsAt(s, p + j, p + d);
    }
  }

  /** No piece contains a match of the pattern. */
  lemma {:induction false} PiecesHaveNoMarker(s: string, p: nat, q: nat)
    requires p <= q <= |s|
    requires forall j :: p <= j < q ==> MarkerEnd(s, j).None?
    ensures forall k :: 0 <= k < |PiecesFrom(s, p, q)| ==> NoMarker(PiecesFrom(s, p, q)[k])
    decreases |s| - q
  {
    if q == |s| {
      SliceHasNoMarker(s, p, q);
      assert s[p..q] == s[p..];
    } else {
      match MarkerEnd(s, q)
      case None =>
        PiecesHaveNoMarker(s, p, q + 1);
      case Some(e) =>
        SliceHasNoMarker(s, p, q);
        PiecesHaveNoMarker(s, e, e);
    }
  }

  lemma SliceHasNoMarker(s: string, p: nat, q: nat)
    requires p <= q <= |s|
    requires forall j :: p <= j < q ==> MarkerEnd(s, j).None?
    ensures NoMarker(s[p..q])
  {
    forall j | 0 <= j <= q - p ensures MarkerEnd(s[p..q], j).None? {
      MatchFromSlice(s, p, q, j);
    }
  }

  /** One more piece than markers. */
  lemma PiecesCount(s: string, p: nat, q: nat)
    requires p <= q <= |s|
    ensures |PiecesFrom(s, p, q)| == |MarkersFrom(s, q)| + 1
  {
    PiecesReassemble(s, p, q);
  }

  /** No match of the pattern starts in `[p, q)`. */
  predicate NoMatchIn(s: string, p: nat, q: nat)
    requires p <= q <= |s|
  {
    forall j :: p <= j < q ==> MarkerEnd(s, j).None?
  }

  lemma NoMatchExtend(s: string, p: nat, q: nat)
    requires p <= q < |s| && MarkerEnd(s, q).None? && NoMatchIn(s, p, q)
    ensures NoMatchIn(s, p, q + 1)
  {
  }

  /** Piece `k`, placed at offset `base` plus its start, is a correct cut of
      `s`: it lies inside `s`, no match of the pattern starts anywhere inside
      it (read in `s`, not just in the piece), and when a marker follows it,
      the match starting right where the piece ends is exactly that marker. */
  predicate CutAt(s: string, pieces: seq<string>, markers: seq<string>, base: nat, k: nat)
    requires |pieces| == |markers| + 1 && k < |pieces|
  {
    var o := base + PieceStart(pieces, markers, k);
    && o + |pieces[k]| <= |s|
    && (forall j :: o <= j < o + |pieces[k]| ==> MarkerEnd(s, j).None?)
    && (k < |markers| ==> MarkerEnd(s, o + |pieces[k]|) == Some(o + |pieces[k]| + |markers[k]|))
  }

  /** A cut of the later pieces, shifted past one piece and one marker. */
  lemma CutAtCons(s: string, x: string, y: string, pieces: seq<string>, markers: seq<string>, base: nat, next: nat, k: nat)
    requires |pieces| == |markers| + 1 && 0 < k <= |pieces|
    requires next == base + |x| + |y|
    requires CutAt(s, pieces, markers, next, k - 1)
    ensures CutAt(s, [x] + pieces, [y] + markers, base, k)
  {
    PieceStartCons(x, y, pieces, markers, k - 1);
    assert ([x] + pieces)[k] == pieces[k - 1];
    assert k - 1 < |markers| ==> ([y] + markers)[k] == markers[k - 1];
  }

  /** Every cut of the scan from `p`, where no match starts in `[p, q)`, is a
      correct cut. */
  lemma {:induction false} CutsFrom(s: string, p: nat, q: nat, k: nat)
    requires p <= q <= |s|
    requires NoMatchIn(s, p, q)
    requires k < |PiecesFrom(s, p, q)|
    ensures |PiecesFrom(s, p, q)| == |MarkersFrom(s, q)| + 1
    ensures CutAt(s, PiecesFrom(s, p, q), MarkersFrom(s, q), p, k)
    decreases |s| - q
  {
    PiecesCount(s, p, q);
    if q == |s| {
      ScanEnd(s, p);
      CutAtEnd(s, p);
    } else if MarkerEnd(s, q).None? {
      ScanSkip(s, p, q);
      NoMatchExtend(s, p, q);
      CutsFrom(s, p, q + 1, k);
      CutsAfterSkip(s, p, q, k);
    } else {
      var e := MarkerEnd(s, q).value;
      ScanCut(s, p, q, e);
      PiecesCount(s, e, e);
      if k == 0 {
        CutAtMatch(s, p, q, e, PiecesFrom(s, e, e), MarkersFrom(s, e));
      } else {
        CutsFrom(s, e, e, k - 1);
        CutsAfterMatch(s, p, q, e, k);
      }
    }
  }

  /** A cut of the scan, seen from one position before, where no match starts. */
  lemma CutsAfterSkip(s: string, p: nat, q: nat, k: nat)
    requires p <= q < |s| && MarkerEnd(s, q).None?
    requires NoMatchIn(s, p, q)
    requires k < |PiecesFrom(s, p, q + 1)|
    requires |PiecesFrom(s, p, q + 1)| == |MarkersFrom(s, q + 1)| + 1
    requires CutAt(s, PiecesFrom(s, p, q + 1), MarkersFrom(s, q + 1), p, k)
    ensures |PiecesFrom(s, p, q)| == |MarkersFrom(s, q)| + 1 && k < |PiecesFrom(s, p, q)|
    ensures CutAt(s, PiecesFrom(s, p, q), MarkersFrom(s, q), p, k)
  {
    ScanSkip(s, p, q);
  }

  /** A later cut of the scan, seen from before the match at `q`. */
  lemma CutsAfterMatch(s: string, p: nat, q: nat, e: nat, k: nat)
    requires p <= q < |s| && MarkerEnd(s, q) == Some(e)
    requires NoMatchIn(s, p, q)
    requires 0 < k && k - 1 < |PiecesFrom(s, e, e)|
    requires |PiecesFrom(s, e, e)| == |MarkersFrom(s, e)| + 1
    requires CutAt(s, PiecesFrom(s, e, e), MarkersFrom(s, e), e, k - 1)
    ensures |PiecesFrom(s, p, q)| == |MarkersFrom(s, q)| + 1 && k < |PiecesFrom(s, p, q)|
    ensures CutAt(s, PiecesFrom(s, p, q), MarkersFrom(s, q), p, k)
  {
    ScanCut(s, p, q, e);
    CutAtCons(s, s[p..q], s[q..e], PiecesFrom(s, e, e), MarkersFrom(s, e), p, e, k);
  }

  /** The scan at the end of the text closes the last piece. */
  lemma ScanEnd(s: string, p: nat)
    requires p <= |s|
    ensures PiecesFrom(s, p, |s|) == [s[p..]] && MarkersFrom(s, |s|) == []
  {
  }

  /** The scan moves past a position where no match starts. */
  lemma ScanSkip(s: string, p: nat, q: nat)
    requires p <= q < |s| && MarkerEnd(s, q).None?
    requires NoMatchIn(s, p, q)
    ensures PiecesFrom(s, p, q) == PiecesFrom(s, p, q + 1)
    ensures MarkersFrom(s, q) == MarkersFrom(s, q + 1)
  {
  }

  /** The scan cuts a piece and a marker at a match. */
  lemma ScanCut(s: string, p: nat, q: nat, e: nat)
    requires p <= q < |s| && MarkerEnd(s, q) == Some(e)
    requires NoMatchIn(s, p, q)
    ensures q < e <= |s|
    ensures PiecesFrom(s, p, q) == [s[p..q]] + PiecesFrom(s, e, e)
    ensures MarkersFrom(s, q) == [s[q..e]] + MarkersFrom(s, e)
  {
  }

  /** The last piece, when no match starts from `p` to the end. */
  lemma CutAtEnd(s: string, p: nat)
    requires p <= |s|
    requires NoMatchIn(s, p, |s|)
    ensures CutAt(s, [s[p..]], [], p, 0)
  {
  }

  /** A piece ended by the match at `q`. */
  lemma CutAtMatch(s: string, p: nat, q: nat, e: nat, pieces: seq<string>, markers: seq<string>)
    requires p <= q <= |s| && MarkerEnd(s, q) == Some(e)
    requires NoMatchIn(s, p, q)
    requires |pieces| == |markers| + 1
    ensures e <= |s|
    ensures CutAt(s, [s[p..q]] + pieces, [s[q..e]] + markers, p, 0)
  {
    assert ([s[p..q]] + pieces)[0] == s[p..q];
    assert ([s[q..e]] + markers)[0] == s[q..e];
  }

  /** The split cuts the text at its leftmost matches, each taken whole: every
      piece is a correct cut. With `MarkerEndMatches`, the match at each cut is
      the longest one there. */
  lemma SplitAtLeftmostMatches(s: string)
    ensures |SplitMarkers(s)| == |MarkersFrom(s, 0)| + 1
    ensures forall k :: 0 <= k < |SplitMarkers(s)| ==> CutAt(s, SplitMarkers(s), MarkersFrom(s, 0), 0, k)
  {
    PiecesReassemble(s, 0, 0);
    forall k | 0 <= k < |SplitMarkers(s)| ensures CutAt(s, SplitMarkers(s), MarkersFrom(s, 0), 0, k) {
      CutsFrom(s, 0, 0, k);
    }
  }

  /** The split of a whole text: pieces free of markers, markers that are
      whole matches, and together they give back the text. */
  lemma SplitMarkersSound(s: string)
    ensures |SplitMarkers(s)| == |MarkersFrom(s, 0)| + 1
    ensures Interleave(SplitMarkers(s), MarkersFrom(s, 0)) == s
    ensures forall k :: 0 <= k < |SplitMarkers(s)| ==> NoMarker(SplitMarkers(s)[k])
    ensures forall k :: 0 <= k < |MarkersFrom(s, 0)| ==> IsMarker(MarkersFrom(s, 0)[k])
  {
    PiecesReassemble(s, 0, 0);
    PiecesHaveNoMarker(s, 0, 0);
    MarkersAreMatches(s, 0);
  }

  // Classification

  /** The list rendering: the first non-empty piece is the intro, the others
      are items numbered from 1, trimmed. */
  function ListOf(content: string): (r: RenderKind)
    ensures r.NumberedList?
  {
    var tables := NonEmpty(SplitMarkers(content));
    NumberedList(
      if |tables| > 0 then Some(tables[0]) else None,
      seq(if |tables| > 0 then |tables| - 1 else 0,
          i requires 0 <= i < |tables| - 1 => ListItem(i + 1, Trim(tables[i + 1]))))
  }

  /** `formatSQLContent`. */
  function Classify(content: string): RenderKind {
    if Contains(ToLower(content), SqlMarker) then SqlBlock(content)
    else if Contains(content, ListMarker) then ListOf(content)
    else Plain(content)
  }

  /** One message: the placeholder while pending, else its classified content. */
  function Render(m: Message): (r: RenderKind)
    ensures m.isLoading <==> r.LoadingPlaceholder?
  {
    if m.isLoading then LoadingPlaceholder else Classify(m.content)
  }

  /** The three kinds and their priority: the case-insensitive SQL check
      wins over the case-sensitive list check; SQL and plain text are shown
      verbatim. */
  lemma ClassifyCases(content: string)
    ensures Classify(content).SqlBlock? <==> Contains(ToLower(content), SqlMarker)
    ensures Classify(content).NumberedList? <==> !Contains(ToLower(content), SqlMarker) && Contains(content, ListMarker)
    ensures Classify(content).Plain? <==> !Contains(ToLower(content), SqlMarker) && !Contains(content, ListMarker)
    ensures Classify(content).SqlBlock? ==> Classify(content).code == content
    ensures Classify(content).Plain? ==> Classify(content).text == content
    ensures !Classify(content).LoadingPlaceholder?
  {
  }

  /** `CREATE TABLE` in any letter case makes the content SQL, whatever
      else it contains. */
  lemma UpperCaseSqlDetected(a: string, b: string)
    ensures Classify(a + "CREATE TABLE" + b).SqlBlock?
  {
    ToLowerConcat(a + "CREATE TABLE", b);
    ToLowerConcat(a, "CREATE TABLE");
    assert ToLower("CREATE TABLE") == SqlMarker;
    ContainsInfix(ToLower(a), SqlMarker, ToLower(b));
  }

  /** The items are the non-empty pieces after the first, numbered 1, 2, ...
      in order, each trimmed; the intro is the first non-empty piece. */
  lemma ListItemsNumbered(content: string, i: nat)
    requires Classify(content).NumberedList?
    ensures var tables := NonEmpty(SplitMarkers(content));
      && Classify(content).intro == (if |tables| > 0 then Some(tables[0]) else None)
      && |Classify(content).items| == (if |tables| > 0 then |tables| - 1 else 0)
      && (i < |Classify(content).items| ==>
            Classify(content).items[i] == ListItem(i + 1, Trim(tables[i + 1])))
  {
  }
  /** Cutting a marker-free text leaves it marker-free. */
  lemma NoMarkerSlice(s: string, a: nat, b: nat)
    requires a <= b <= |s| && NoMarker(s)
    ensures NoMarker(s[a..b])
  {
    SliceHasNoMarker(s, a, b);
  }

  /** The non-empty split pieces are free of markers. */
  lemma TablesHaveNoMarker(content: string)
    ensures forall k :: 0 <= k < |NonEmpty(SplitMarkers(content))| ==> NoMarker(NonEmpty(SplitMarkers(content))[k])
  {
    SplitMarkersSound(content);
    var pieces := SplitMarkers(content);
    forall k | 0 <= k < |NonEmpty(pieces)| ensures NoMarker(NonEmpty(pieces)[k]) {
      var x := NonEmpty(pieces)[k];
      assert x in pieces;
      var j :| 0 <= j < |pieces| && pieces[j] == x;
    }
  }

  /** The list marker never survives into the rendering: the intro is a
      non-empty text without a match of the pattern, and no item text
      contains one either. */
  lemma ListTextsHaveNoMarker(content: string)
    ensures ListOf(content).intro.Some? ==>
      ListOf(content).intro.value != "" && NoMarker(ListOf(content).intro.value)
    ensures forall i :: 0 <= i < |ListOf(content).items| ==> NoMarker(ListOf(content).items[i].text)
  {
    TablesHaveNoMarker(content);
    var tables := NonEmpty(SplitMarkers(content));
    forall i | 0 <= i < |ListOf(content).items| ensures NoMarker(ListOf(content).items[i].text) {
      ItemText(content, i);
      TrimHasNoMarker(tables[i + 1]);
    }
  }

  lemma ItemText(content: string, i: nat)
    requires i < |ListOf(content).items|
    ensures ListOf(content).items[i].text == Trim(NonEmpty(SplitMarkers(content))[i + 1])
  {
  }

  lemma TrimHasNoMarker(x: string)
    requires NoMarker(x)
    ensures NoMarker(Trim(x))
  {
    var t := TrimStartIndex(x);
    NoMarkerSlice(x, t, t + |Trim(x)|);
  }
}

=== FILE: Ollama.dfy ===
/** Handling of the language model's answer in `generateDiagram`: the JSON
    object is cut out of the free text between the first `{` and the last `}`,
    parsed, checked for `nodes` and `edges`, and replaced by a fixed one-table
    error diagram when any of that fails. The HTTP exchange itself is an input. */
module Ollama {
  import opened Wrappers
  import opened JsString
  import opened Schema

  /** What the exchange with the model server produced before the answer is
      examined: a non-OK status, a thrown transport or body-decoding error, or
      the decoded body, whose `response` member is `None` when it is not a
      string. A body that decodes to `null` throws when its `response` is read,
      before the fallback's `try`, so it is a `TransportError`, not a
      `Received(None)`. */
  datatype HttpReply =
    | NotOk
    | TransportError(message: string)
    | Received(response: Option<string>)

  /** `JSON.parse` followed by reading the result as a diagram: `None` when
      parsing throws or the value is not an object. */
  type JsonParser = string -> Option<Diagram>

  /** The slice handed to the parser:
      `text.substring(text.indexOf('{'), text.lastIndexOf('}') + 1)`. */
  function JsonCandidate(text: string): string {
    Substring(text, IndexOf(text, '{'), LastIndexOf(text, '}') + 1)
  }

  const ErrorTableName: string := "Error: Invalid AI Response"
  const NotOkMessage: string := "Failed to generate diagram"

  /** The diagram returned whenever the answer cannot be used. */
  const Fallback: Diagram :=
    Diagram(
      Some([Table("1", TableNodeKind, ErrorTableName, None, [], Position(400, 0))]),
      Some([]),
      None)

  /** The structural check: both `nodes` and `edges` are present (truthy). */
  predicate HasNodesAndEdges(d: Diagram) {
    d.nodes.Some? && d.edges.Some?
  }

  /** The parsed value that passes the structural check, if there is one. */
  function Accepted(text: Option<string>, parse: JsonParser): Option<Diagram> {
    match text
    case None => None
    case Some(t) =>
      match parse(JsonCandidate(t))
      case None => None
      case Some(d) => if HasNodesAndEdges(d) then Some(d) else None
  }

  /** The inner `try` block: the accepted value unchanged, or the fallback. */
  function ExtractDiagram(text: Option<string>, parse: JsonParser): (d: Diagram)
    ensures HasNodesAndEdges(d)
    ensures text.Some? && parse(JsonCandidate(text.value)).Some? && HasNodesAndEdges(parse(JsonCandidate(text.value)).value)
            ==> d == parse(JsonCandidate(text.value)).value
    ensures text.None? || parse(JsonCandidate(text.value)).None? || !HasNodesAndEdges(parse(JsonCandidate(text.value)).value)
            ==> d == Fallback
  {
    Accepted(text, parse).GetOr(Fallback)
  }

  /** `generateDiagram` after the request is sent: only a non-OK status and a
      transport error escape as failures; every answer that arrived becomes a
      diagram with `nodes` and `edges`. */
  function GenerateDiagram(reply: HttpReply, parse: JsonParser): (r: Result<Diagram>)
    ensures r.Failure? <==> !reply.Received?
    ensures reply.NotOk? ==> r.message == NotOkMessage
    ensures reply.TransportError? ==> r.message == reply.message
    ensures r.Success? ==> HasNodesAndEdges(r.value)
    ensures r.Success? ==> r.value == Fallback || Some(r.value) == Accepted(reply.response, parse)
  {
    match reply
    case NotOk => Failure(NotOkMessage)
    case TransportError(m) => Failure(m)
    case Received(text) => Success(ExtractDiagram(text, parse))
  }

  /** When a `{` precedes the last `}`, the candidate is exactly the text from
      the first `{` to the last `}`, both included. */
  lemma CandidateBetweenBraces(text: string)
    requires '{' in text && '}' in text
    requires IndexOf(text, '{') < LastIndexOf(text, '}')
    ensures JsonCandidate(text) == text[IndexOf(text, '{')..LastIndexOf(text, '}') + 1]
    ensures |JsonCandidate(text)| >= 2
    ensures JsonCandidate(text)[0] == '{' && JsonCandidate(text)[|JsonCandidate(text)| - 1] == '}'
    ensures '{' !in text[..IndexOf(text, '{')]
    ensures forall k :: LastIndexOf(text, '}') < k < |text| ==> text[k] != '}'
  {
  }

  /** Without any `}` the end position is 0 and `substring` swaps its
      arguments: the candidate is the text before the first `{`, or empty when
      there is no `{` either. */
  lemma CandidateWithoutClosingBrace(text: string)
    requires '}' !in text
    ensures '{' in text ==> JsonCandidate(text) == text[..IndexOf(text, '{')]
    ensures '{' !in text ==> JsonCandidate(text) == ""
  {
  }

  /** Without any `{` the start position -1 is clamped to 0: the candidate is
      the text up to and including the last `}`. */
  lemma CandidateWithoutOpeningBrace(text: string)
    requires '{' !in text && '}' in text
    ensures JsonCandidate(text) == text[..LastIndexOf(text, '}') + 1]
  {
  }

  /** When the last `}` comes before the first `{`, the arguments are swapped:
      the candidate is the text strictly between them. */
  lemma CandidateReversedBraces(text: string)
    requires '{' in text && '}' in text
    requires LastIndexOf(text, '}') < IndexOf(text, '{')
    ensures JsonCandidate(text) == text[LastIndexOf(text, '}') + 1..IndexOf(text, '{')]
  {
  }

  /** The fallback is a single table node named as an error, with no fields,
      at (400, 0), and no edges. */
  lemma FallbackShape()
    ensures Fallback.nodes.Some? && |Fallback.nodes.value| == 1
    ensures Fallback.nodes.value[0].id == "1"
    ensures Fallback.nodes.value[0].kind == TableNodeKind
    ensures Fallback.nodes.value[0].name == ErrorTableName
    ensures Fallback.nodes.value[0].fields == []
    ensures Fallback.nodes.value[0].position == Position(400, 0)
    ensures Fallback.edges == Some([])
  {
  }

  /** A diagram without nodes can come out of a received answer only when the
      model's JSON parsed, passed the check, and had an empty `nodes` array:
      the fallback always has a node. */
  lemma EmptyNodesOnlyFromParsedJson(reply: HttpReply, parse: JsonParser)
    requires GenerateDiagram(reply, parse).Success?
    requires GenerateDiagram(reply, parse).value.nodes.None? || GenerateDiagram(reply, parse).value.nodes.value == []
    ensures reply.Received? && reply.response.Some?
    ensures parse(JsonCandidate(reply.response.value)) == Some(GenerateDiagram(reply, parse).value)
    ensures GenerateDiagram(reply, parse).value.nodes == Some([])
  {
    var d := GenerateDiagram(reply, parse).value;
    assert d != Fallback;
    assert Some(d) == Accepted(reply.response, parse);
  }
}

=== FILE: Schema.dfy ===
/** The diagram data exchanged between the language model, the chat and the
    SQL emitter: React Flow nodes that carry one database table each, and edges
    between them. Optional members are `Option`s; JavaScript truthiness of the
    boolean flags is modelled by `bool`. */
module Schema {
  import opened Wrappers

  /** One column of a table. `fieldType` is the model's free-form type word
      (`ints`, `text`, `bool`, `date`, `float`, `json`, or anything else). */
  datatype Field = Field(
    name: string,
    fieldType: string,
    isPrimary: bool,
    isForeign: bool,
    description: Option<string>)

  datatype Position = Position(x: int, y: int)

  /** A diagram node holding one table; `name` is the node's `data.label`, the table name. */
  datatype Table = Table(
    id: string,
    kind: string,
    name: string,
    purpose: Option<string>,
    fields: seq<Field>,
    position: Position)

  /** A relationship drawn from the table holding a foreign key to the table it references. */
  datatype Edge = Edge(id: string, source: string, target: string, kind: string, animated: bool)

  /** The object parsed from the model's answer. `nodes` and `edges` are `None`
      when the member is missing or falsy; nothing else about it is checked. */
  datatype Diagram = Diagram(
    nodes: Option<seq<Table>>,
    edges: Option<seq<Edge>>,
    description: Option<string>)

  /** The node type the canvas renders as a table. */
  const TableNodeKind: string := "dbTable"
}

=== FILE: SqlGenerator.dfy ===
/** The SQL emitter: one `CREATE TABLE` block per diagram node, in node order,
    built from a fixed field-type lookup. Only a primary-key suffix is ever
    emitted; the foreign-key flag and field descriptions play no part. */
module SqlGenerator {
  import opened JsString
  import opened Wrappers
  import opened Schema

  /** The column type for a field type word. */
  function SqlType(fieldType: string): string {
    if fieldType == "ints" then "INTEGER"
    else if fieldType == "text" then "TEXT"
    else if fieldType == "bool" then "BOOLEAN"
    else if fieldType == "date" then "TIMESTAMP"
    else if fieldType == "float" then "DECIMAL"
    else "TEXT"
  }

  /** The column types the emitter can produce. */
  const ColumnTypes: set<string> := {"INTEGER", "TEXT", "BOOLEAN", "TIMESTAMP", "DECIMAL"}

  /** The lookup: five recognised words, and every other word (`json` included)
      falls back to `TEXT`. */
  lemma SqlTypeMapping(fieldType: string)
    ensures SqlType(fieldType) in ColumnTypes
    ensures fieldType == "ints" <==> SqlType(fieldType) == "INTEGER"
    ensures fieldType == "bool" <==> SqlType(fieldType) == "BOOLEAN"
    ensures fieldType == "date" <==> SqlType(fieldType) == "TIMESTAMP"
    ensures fieldType == "float" <==> SqlType(fieldType) == "DECIMAL"
    ensures SqlType(fieldType) == "TEXT" <==> fieldType !in {"ints", "bool", "date", "float"}
    ensures SqlType("json") == "TEXT"
  {
  }

  const PrimaryKeySuffix: string := " PRIMARY KEY"

  /** One column definition: indentation, name, type, and the primary-key suffix. */
  function FieldLine(f: Field): string {
    "  " + f.name + " " + SqlType(f.fieldType) + (if f.isPrimary then PrimaryKeySuffix else "")
  }

  /** The column definition depends on the name, the type word and the primary
      flag only: the foreign-key flag and the description never change it. */
  lemma FieldLineIgnoresForeignKey(f: Field, isForeign: bool, description: Option<string>)
    ensures FieldLine(f.(isForeign := isForeign, description := description)) == FieldLine(f)
  {
  }

  /** A column definition starts with its indented name and ends in ` PRIMARY KEY`
      exactly when the field is primary. */
  lemma FieldLineShape(f: Field)
    ensures StartsWith(FieldLine(f), "  " + f.name + " ")
    ensures EndsWith(FieldLine(f), PrimaryKeySuffix) <==> f.isPrimary
    ensures EndsWith(FieldLine(f), SqlType(f.fieldType)) <==> !f.isPrimary
    ensures |FieldLine(f)| == 3 + |f.name| + |SqlType(f.fieldType)| + (if f.isPrimary then |PrimaryKeySuffix| else 0)
  {
    var line := FieldLine(f);
    var t := SqlType(f.fieldType);
    SqlTypeMapping(f.fieldType);
    assert line == "  " + f.name + " " + (t + (if f.isPrimary then PrimaryKeySuffix else ""));
    if f.isPrimary {
      assert line[|line| - 1] == 'Y';
      assert t[|t| - 1] != 'Y';
    } else {
      assert line[|line| - |t|..] == t;
      assert line[|line| - 1] != 'Y';
    }
  }

  /** The column definitions of a table, in field order. */
  function FieldLines(fields: seq<Field>): (lines: seq<string>)
    ensures |lines| == |fields|
    ensures forall k :: 0 <= k < |fields| ==> lines[k] == FieldLine(fields[k])
  {
    seq(|fields|, k requires 0 <= k < |fields| => FieldLine(fields[k]))
  }

  const ColumnSeparator: string := ",\n"
  const BlockEnd: string := "\n);\n\n"

  /** The comment and the opening line of a table's block. */
  function Header(t: Table): string {
    "-- Create " + t.name + " table\n" + "CREATE TABLE " + t.name + " (\n"
  }

  /** The column definitions joined by `,\n`, without a trailing separator. */
  function Columns(t: Table): string {
    Join(FieldLines(t.fields), ColumnSeparator)
  }

  /** The block emitted for one node. */
  function TableBlock(t: Table): string {
    Header(t) + Columns(t) + BlockEnd
  }

  /** `generateSQL`: the blocks of the nodes, concatenated in node order. */
  function GenerateSql(nodes: seq<Table>): (sql: string)
    ensures sql == "" <==> |nodes| == 0
  {
    if |nodes| == 0 then ""
    else
      BlockShape(nodes[0]);
      TableBlock(nodes[0]) + GenerateSql(nodes[1..])
  }

  /** A block is never empty: it starts with its header and ends with `\n);\n\n`. */
  lemma BlockShape(t: Table)
    ensures StartsWith(TableBlock(t), Header(t))
    ensures EndsWith(TableBlock(t), BlockEnd)
  {
    var h, c := Header(t), Columns(t);
    assert TableBlock(t) == h + c + BlockEnd;
    StartsWithConcat(h, c + BlockEnd, h);
    assert h + c + BlockEnd == h + (c + BlockEnd);
    EndsWithConcat(h + c, BlockEnd, BlockEnd);
  }

  /** A non-empty script starts with the first node's header and ends with a
      block terminator. */
  lemma GenerateSqlShape(nodes: seq<Table>)
    requires |nodes| > 0
    ensures StartsWith(GenerateSql(nodes), Header(nodes[0]))
    ensures EndsWith(GenerateSql(nodes), BlockEnd)
  {
    GenerateSqlStarts(nodes);
    GenerateSqlEnds(nodes);
  }

  lemma GenerateSqlStarts(nodes: seq<Table>)
    requires |nodes| > 0
    ensures StartsWith(GenerateSql(nodes), Header(nodes[0]))
  {
    var x, y := TableBlock(nodes[0]), GenerateSql(nodes[1..]);
    assert GenerateSql(nodes) == x + y;
    BlockShape(nodes[0]);
    StartsWithConcat(x, y, Header(nodes[0]));
  }

  lemma GenerateSqlEnds(nodes: seq<Table>)
    requires |nodes| > 0
    ensures EndsWith(GenerateSql(nodes), BlockEnd)
  {
    var n := |nodes| - 1;
    var a, last := nodes[..n], nodes[n];
    assert a + [last] == nodes;
    GenerateSqlOfConcat(a, [last], nodes);
    GenerateSqlSingle(last);
    BlockShape(last);
    EndsWithConcat(GenerateSql(a), TableBlock(last), BlockEnd);
  }

  /** The emitter distributes over concatenation of node lists. */
  lemma {:induction false} GenerateSqlConcat(a: seq<Table>, b: seq<Table>)
    ensures GenerateSql(a + b) == GenerateSql(a) + GenerateSql(b)
    decreases |a|
  {
    if |a| == 0 {
      assert a + b == b;
    } else {
      var ab := a + b;
      assert ab[0] == a[0] && ab[1..] == a[1..] + b;
      GenerateSqlConcat(a[1..], b);
      var blk, x, y := TableBlock(a[0]), GenerateSql(a[1..]), GenerateSql(b);
      calc {
        GenerateSql(ab);
        blk + GenerateSql(a[1..] + b);
        blk + (x + y);
        { ConcatAssoc(blk, x, y); }
        (blk + x) + y;
      }
    }
  }

  /** Where the block of node `i` starts in the script. */
  function BlockOffset(nodes: seq<Table>, i: nat): nat
    requires i <= |nodes|
  {
    |GenerateSql(nodes[..i])|
  }

  /** The script splits around the block of node `i`. */
  lemma SplitAroundBlock(nodes: seq<Table>, i: nat)
    requires i < |nodes|
    ensures GenerateSql(nodes[..i + 1]) == GenerateSql(nodes[..i]) + TableBlock(nodes[i])
    ensures GenerateSql(nodes) == GenerateSql(nodes[..i + 1]) + GenerateSql(nodes[i + 1..])
  {
    SliceAround(nodes, i);
    GenerateSqlOfConcat(nodes[..i + 1], nodes[i + 1..], nodes);
    GenerateSqlOfConcat(nodes[..i], [nodes[i]], nodes[..i + 1]);
    GenerateSqlSingle(nodes[i]);
  }

  lemma SliceAround<T>(xs: seq<T>, i: nat)
    requires i < |xs|
    ensures xs == xs[..i + 1] + xs[i + 1..]
    ensures xs[..i + 1] == xs[..i] + [xs[i]]
    ensures xs[..|xs|] == xs
  {
  }

  lemma GenerateSqlOfConcat(a: seq<Table>, b: seq<Table>, ab: seq<Table>)
    requires ab == a + b
    ensures GenerateSql(ab) == GenerateSql(a) + GenerateSql(b)
  {
    GenerateSqlConcat(a, b);
  }

  lemma GenerateSqlSingle(t: Table)
    ensures GenerateSql([t]) == TableBlock(t)
  {
    assert [t][1..] == [];
  }

  /** Node `i`'s block sits between the offsets of node `i` and node `i + 1`,
      which are strictly increasing: one block, and so one header, per node, in
      input order, and nothing else in the script. */
  lemma BlocksInOrder(nodes: seq<Table>, i: nat)
    requires i < |nodes|
    ensures BlockOffset(nodes, i) < BlockOffset(nodes, i + 1) <= |GenerateSql(nodes)|
    ensures GenerateSql(nodes)[BlockOffset(nodes, i)..BlockOffset(nodes, i + 1)] == TableBlock(nodes[i])
    ensures OccursAt(GenerateSql(nodes), Header(nodes[i]), BlockOffset(nodes, i))
    ensures BlockOffset(nodes, 0) == 0 && BlockOffset(nodes, |nodes|) == |GenerateSql(nodes)|
  {
    SplitAroundBlock(nodes, i);
    SliceAround(nodes, i);
    var blk := TableBlock(nodes[i]);
    BlockShape(nodes[i]);
    OccursInMiddle(GenerateSql(nodes[..i]), blk, GenerateSql(nodes[i + 1..]), Header(nodes[i]));
  }

  /** Inside a block the column definitions appear at the join offsets, in field
      order, separated by `,\n`, and the block ends right after the last one. */
  lemma ColumnsInOrder(t: Table, k: nat)
    requires k < |t.fields|
    ensures OccursAt(Columns(t), FieldLine(t.fields[k]), JoinOffset(FieldLines(t.fields), ColumnSeparator, k))
    ensures k > 0 ==> OccursAt(Columns(t), ColumnSeparator, JoinOffset(FieldLines(t.fields), ColumnSeparator, k) - |ColumnSeparator|)
    ensures EndsWith(TableBlock(t), FieldLine(t.fields[|t.fields| - 1]) + BlockEnd)
  {
    var lines := FieldLines(t.fields);
    JoinPieces(lines, ColumnSeparator, k);
    var h, c := Header(t), Columns(t);
    var last := FieldLine(t.fields[|t.fields| - 1]);
    EndsWithAppend(c, last, BlockEnd);
    EndsWithConcat(h, c + BlockEnd, last + BlockEnd);
    assert TableBlock(t) == h + (c + BlockEnd);
  }
}

=== FILE: SupabaseService.dfy ===
/** `deployToSupabase`: the script is cut into commands (line endings
    normalised, split on `;`, trimmed, empty pieces dropped) and the commands
    are sent one at a time to the backend's `execute_sql` procedure, stopping
    at the first one the backend rejects. The session lookup and the procedure
    call are inputs. */
module SupabaseService {
  import opened Wrappers
  import opened JsString

  /** The result of `auth.getSession()`. */
  datatype SessionLookup = SessionError(message: string) | NoSession | Active

  /** The result of one `execute_sql` call; a thrown call is an `ExecError` too. */
  datatype ExecResult = ExecOk | ExecError(message: string)

  /** The backend answers each call knowing every command sent so far, the
      current one last, so it may depend on what earlier commands did. */
  type Executor = seq<string> -> ExecResult

  const NoSessionMessage: string := "No active session"
  const CommandFailedPrefix: string := "Command execution failed: "
  const UnknownError: string := "Unknown error"

  /** Progress values reported through `onProgress`. */
  const PreparingScript: nat := 1
  const PreparingCommands: nat := 2
  const ExecutingCommands: nat := 3
  const Completed: nat := 4

  /** Every piece trimmed. */
  function TrimAll(pieces: seq<string>): (r: seq<string>)
    ensures |r| == |pieces|
    ensures forall k :: 0 <= k < |r| ==> r[k] == Trim(pieces[k])
  {
    seq(|pieces|, k requires 0 <= k < |pieces| => Trim(pieces[k]))
  }

  /** The commands of a script, in script order. */
  function SplitCommands(script: string): (commands: seq<string>)
    ensures forall k :: 0 <= k < |commands| ==>
      && commands[k] != ""
      && ';' !in commands[k]
      && !IsSpace(commands[k][0]) && !IsSpace(commands[k][|commands[k]| - 1])
  {
    var pieces := Split(ReplaceCrlf(script), ';');
    var commands := NonEmpty(TrimAll(pieces));
    assert forall k :: 0 <= k < |commands| ==> ';' !in commands[k] by {
      forall k | 0 <= k < |commands| ensures ';' !in commands[k] {
        var j :| 0 <= j < |pieces| && TrimAll(pieces)[j] == commands[k];
        TrimKeepsOut(pieces[j], ';');
      }
    }
    commands
  }

  /** A character absent from a string is absent from its trim. */
  lemma TrimKeepsOut(s: string, c: char)
    requires c !in s
    ensures c !in Trim(s)
  {
    var r := Trim(s);
    var i := TrimStartIndex(s);
    assert forall k :: 0 <= k < |r| ==> r[k] == s[i + k];
  }

  /** Every character of a piece is a character of the string split. */
  lemma {:induction false} SplitPieceChars(s: string, sep: char, k: nat, c: char)
    requires k < |Split(s, sep)|
    requires c in Split(s, sep)[k]
    ensures c in s
    decreases |s|
  {
    if |s| > 0 {
      var rest := Split(s[1..], sep);
      if s[0] == sep {
        assert k > 0;
        SplitPieceChars(s[1..], sep, k - 1, c);
      } else if k == 0 {
        if c != s[0] {
          assert c in rest[0];
          SplitPieceChars(s[1..], sep, 0, c);
        }
      } else {
        SplitPieceChars(s[1..], sep, k, c);
      }
    }
  }

  /** The script is made only of whitespace and `;` (the empty script included). */
  predicate BlankScript(script: string) {
    forall k :: 0 <= k < |script| ==> IsSpace(script[k]) || script[k] == ';'
  }

  /** A blank script yields no command. */
  lemma BlankScriptHasNoCommands(script: string)
    requires BlankScript(script)
    ensures SplitCommands(script) == []
  {
    var normal := ReplaceCrlf(script);
    var pieces := Split(normal, ';');
    forall j | 0 <= j < |pieces| ensures Trim(pieces[j]) == "" {
      forall k | 0 <= k < |pieces[j]| ensures IsSpace(pieces[j][k]) {
        var c := pieces[j][k];
        SplitPieceChars(normal, ';', j, c);
        ReplaceCrlfChars(script, c);
      }
    }
    NonEmptyOfBlanks(TrimAll(pieces));
  }

  /** Trimming piece by piece distributes over concatenation. */
  lemma TrimAllConcat(a: seq<string>, b: seq<string>)
    ensures TrimAll(a + b) == TrimAll(a) + TrimAll(b)
  {
  }

  /** A script without `;` is one command, its CRLF-normalised text trimmed,
      unless that text is blank. */
  lemma SplitCommandsOfPiece(script: string)
    requires ';' !in script
    ensures SplitCommands(script) ==
      if AllSpace(ReplaceCrlf(script)) then [] else [Trim(ReplaceCrlf(script))]
  {
    var normal := ReplaceCrlf(script);
    if ';' in normal {
      ReplaceCrlfChars(script, ';');
    }
    SplitNoSeparator(normal, ';');
    assert TrimAll([normal]) == [Trim(normal)];
    NonEmptyConcat([Trim(normal)], []);
  }

  /** Without carriage returns the normalised text is the script itself. */
  lemma SplitCommandsOfPlainPiece(script: string)
    requires ';' !in script && '\r' !in script
    ensures SplitCommands(script) == if AllSpace(script) then [] else [Trim(script)]
  {
    SplitCommandsOfPiece(script);
    ReplaceCrlfNoCr(script);
  }

  /** The commands of two scripts joined by `;` are the commands of the first
      followed by the commands of the second: splitting keeps script order. */
  lemma SplitCommandsConcat(a: string, b: string)
    ensures SplitCommands(a + ";" + b) == SplitCommands(a) + SplitCommands(b)
  {
    var ra, rb := ReplaceCrlf(a), ReplaceCrlf(b);
    assert a + ";" + b == a + ([';'] + b);
    ReplaceCrlfBefore(a, [';'] + b);
    assert ([';'] + b)[1..] == b;
    assert ReplaceCrlf([';'] + b) == [';'] + rb;
    assert ReplaceCrlf(a + ";" + b) == ra + [';'] + rb;
    SplitConcat(ra, ';', rb);
    var pa, pb := Split(ra, ';'), Split(rb, ';');
    TrimAllConcat(pa, pb);
    NonEmptyConcat(TrimAll(pa), TrimAll(pb));
  }

  /** The backend accepts command `k` when the commands are sent in order. */
  predicate Accepts(exec: Executor, commands: seq<string>, k: nat)
    requires k < |commands|
  {
    exec(commands[..k + 1]).ExecOk?
  }

  /** The first command, from position `from` on, that the backend rejects
      when the commands are sent in order. */
  function FirstFailure(exec: Executor, commands: seq<string>, from: nat): (f: Option<nat>)
    requires from <= |commands|
    ensures f.None? ==> forall k :: from <= k < |commands| ==> Accepts(exec, commands, k)
    ensures f.Some? ==> from <= f.value < |commands| && !Accepts(exec, commands, f.value)
    ensures f.Some? ==> forall k :: from <= k < f.value ==> Accepts(exec, commands, k)
    decreases |commands| - from
  {
    if from == |commands| then None
    else if !Accepts(exec, commands, from) then Some(from)
    else FirstFailure(exec, commands, from + 1)
  }

  /** The message of the error thrown for a rejected command. */
  function CommandFailure(r: ExecResult): string
    requires r.ExecError?
  {
    CommandFailedPrefix + (if r.message == "" then UnknownError else r.message)
  }

  predicate IsPrefix(a: seq<string>, b: seq<string>) {
    |a| <= |b| && a == b[..|a|]
  }

  /** The non-empty commands among the first `i`, one step further on. */
  lemma NonEmptyStep(commands: seq<string>, i: nat)
    requires i < |commands|
    ensures NonEmpty(commands[..i + 1]) == NonEmpty(commands[..i]) + (if commands[i] == "" then [] else [commands[i]])
  {
    assert commands[..i + 1] == commands[..i] + [commands[i]];
    NonEmptyConcat(commands[..i], [commands[i]]);
  }

  /** The non-empty commands split around position `i`. */
  lemma NonEmptySplitAt(commands: seq<string>, i: nat)
    requires i <= |commands|
    ensures NonEmpty(commands) == NonEmpty(commands[..i]) + NonEmpty(commands[i..])
  {
    SlicesJoin(commands, i);
    NonEmptyConcat(commands[..i], commands[i..]);
  }

  lemma SlicesJoin<T>(xs: seq<T>, i: nat)
    requires i <= |xs|
    ensures xs[..i] + xs[i..] == xs
  {
  }

  /** The non-empty commands from a non-empty command `commands[i]` on start with it. */
  lemma NonEmptyFrom(commands: seq<string>, i: nat)
    requires i < |commands| && commands[i] != ""
    ensures NonEmpty(commands[i..]) == [commands[i]] + NonEmpty(commands[i + 1..])
  {
    assert commands[i..] == [commands[i]] + commands[i + 1..];
    NonEmptyConcat([commands[i]], commands[i + 1..]);
  }

  /** Sending the non-empty command `commands[i]` extends what was sent
      before it by the next command of the filtered list. */
  lemma NextSent(commands: seq<string>, i: nat)
    requires i < |commands| && commands[i] != ""
    ensures var before := NonEmpty(commands[..i]);
      && |before| < |NonEmpty(commands)|
      && NonEmpty(commands)[..|before| + 1] == before + [commands[i]]
      && NonEmpty(commands[..i + 1]) == before + [commands[i]]
  {
    NonEmptySplitAt(commands, i);
    NonEmptyFrom(commands, i);
    NonEmptyStep(commands, i);
    var before := NonEmpty(commands[..i]);
    var after := NonEmpty(commands[i + 1..]);
    assert NonEmpty(commands) == before + ([commands[i]] + after);
    assert (before + ([commands[i]] + after))[..|before| + 1] == before + [commands[i]];
  }

  /** The loop of `deployToSupabase`: empty commands are skipped, the others
      are sent in order until one is rejected. `attempted` lists the commands
      sent; `failure` is the message thrown for the rejected one. */
  method SendCommands(commands: seq<string>, exec: Executor)
    returns (failure: Option<string>, attempted: seq<string>)
    ensures IsPrefix(attempted, NonEmpty(commands))
    ensures failure.None? <==> FirstFailure(exec, NonEmpty(commands), 0).None?
    ensures failure.None? ==> attempted == NonEmpty(commands)
    ensures failure.Some? ==>
      && FirstFailure(exec, NonEmpty(commands), 0) == Some(|attempted| - 1)
      && exec(attempted).ExecError?
      && failure.value == CommandFailure(exec(attempted))
  {
    ghost var sent := NonEmpty(commands);
    attempted := [];
    var i := 0;
    while i < |commands|
      invariant 0 <= i <= |commands|
      invariant attempted == NonEmpty(commands[..i])
      invariant IsPrefix(attempted, sent)
      invariant FirstFailure(exec, sent, 0) == FirstFailure(exec, sent, |attempted|)
    {
      var command := commands[i];
      if command == "" {
        NonEmptyStep(commands, i);
        i := i + 1;
        continue;
      }
      NextSent(commands, i);
      attempted := attempted + [command];
      var result := exec(attempted);
      if result.ExecError? {
        return Some(CommandFailure(result)), attempted;
      }
      i := i + 1;
    }
    assert commands[..i] == commands;
    failure := None;
  }

  /** For a blank script there is nothing to send and so nothing to reject. */
  lemma BlankScriptDeploysNothing(script: string, exec: Executor)
    requires BlankScript(script)
    ensures SplitCommands(script) == [] && NonEmpty(SplitCommands(script)) == []
    ensures FirstFailure(exec, NonEmpty(SplitCommands(script)), 0).None?
  {
    BlankScriptHasNoCommands(script);
  }

  /** `deployToSupabase`. `attempted` lists the commands sent, in order;
      `progress` lists the values passed to `onProgress`. */
  method DeployToSupabase(script: string, session: SessionLookup, exec: Executor)
    returns (outcome: Result<bool>, attempted: seq<string>, progress: seq<nat>)
    ensures !session.Active? ==> attempted == [] && progress == []
    ensures session.SessionError? ==> outcome == Failure(session.message)
    ensures session.NoSession? ==> outcome == Failure(NoSessionMessage)
    ensures session.Active? ==> IsPrefix(attempted, SplitCommands(script))
    ensures session.Active? ==> (outcome.Success? <==> FirstFailure(exec, SplitCommands(script), 0).None?)
    ensures session.Active? && outcome.Success? ==>
      && outcome.value
      && attempted == SplitCommands(script)
      && progress == [PreparingScript, PreparingCommands, ExecutingCommands, Completed]
    ensures session.Active? && outcome.Failure? ==>
      && FirstFailure(exec, SplitCommands(script), 0) == Some(|attempted| - 1)
      && exec(attempted).ExecError?
      && outcome.message == CommandFailure(exec(attempted))
      && progress == [PreparingScript, PreparingCommands, ExecutingCommands]
    ensures session.Active? && BlankScript(script) ==>
      && outcome == Success(true)
      && attempted == []
      && progress == [PreparingScript, PreparingCommands, ExecutingCommands, Completed]
  {
    match session {
      case SessionError(m) =>
        return Failure(m), [], [];
      case NoSession =>
        return Failure(NoSessionMessage), [], [];
      case Active =>
    }
    var commands := SplitCommands(script);
    if BlankScript(script) {
      BlankScriptDeploysNothing(script, exec);
    }
    NonEmptyOfFilled(commands);
    progress := [PreparingScript, PreparingCommands, ExecutingCommands];
    var failure;
    failure, attempted := SendCommands(commands, exec);
    if failure.Some? {
      return Failure(failure.value), attempted, progress;
    }
    progress := progress + [Completed];
    outcome := Success(true);
  }
}

=== FILE: Wrappers.dfy ===
/** Optional values and success/failure results, used wherever the modelled
    TypeScript code has `undefined`/falsy values or throws. */
module Wrappers {

  /** A value that may be absent (`undefined`, `null` or another falsy value). */
  datatype Option<+T> = None | Some(value: T) {

    /** The wrapped value, or `default` when there is none (JavaScript's `x || default`). */
    function GetOr(default: T): T {
      match this
      case Some(v) => v
      case None => default
    }
  }

  /** The outcome of an operation that may throw: `Failure` carries the thrown error's message. */
  datatype Result<+R> = Success(value: R) | Failure(message: string)
}
